=== FILE: README.md ===
# graph_analysis core, modelled in Dafny

This project models six small pieces of the graph abstraction layer of the
`graph_analysis` C++ library and proves properties about them:

- **Edges** (`edge.dfy`). An edge is a record holding:
  - a class name and a label;
  - two possibly null vertex references, compared by identity;
  - the set of graphs the edge object is associated with.

  The module covers the two constructors, the endpoint accessors, `clone`,
  `toString`, `getInvolvedVertices` and `areMeeting`.
- **Filter chains** (`filter.dfy`). A finite tree of edge-context filters with
  abstract predicates. `permitTarget` and `permitSource` are a recursive OR over
  the filter's own predicate and its edge-context children. Children of any
  other filter kind are skipped. The module also covers the `CONTENT`/`CLASS`
  name table and its inverse.
- **Edge type registry** (`edge_type_manager.dfy`). The process-wide singleton
  becomes an explicit registry value. It holds a prototype map, the set of
  registered names and a default type. Registration may refuse duplicates.
  `createEdge` clones the prototype and then sets the label, plus the
  endpoints in the second overload. An unknown type either fails or falls back
  to the default type.
- **Boost adapter id bookkeeping** (`directed_graph.dfy`):
  - per-graph id counters shared across instances;
  - the id→descriptor maps;
  - an abstract backend store keyed by opaque descriptors;
  - adding, removing and looking up vertices and edges;
  - `createSubGraph`;
  - `getEdges(source, target)`.
- **LP solver naming** (`lp_solver.dfy`). The solver-type name table, solver
  selection in `getInstance`, and the variable name `x<index>` of an LP column
  together with its inverse.
- **Multi-commodity vertex text** (`multi_commodity_vertex.dfy`). The two-line
  `toString` with its bracketed, comma-separated supply/demand and
  minimum-transit-flow lists. A decoder is provided and proved to invert it.
- **Shared helpers** (`decimal.dfy`, `wrappers.dfy`). Decimal rendering as
  C++ output string streams write it, a strict reader that accepts exactly
  the texts that writer produces and inverts it, and the digit-prefix scan
  on which the model of `ss >> index` (`LPSolver.ExtractU32`) builds. Also
  `Option`/`Result`.

Failures that the C++ code reports by throwing are modelled as `Result`
values:
- `invalid_argument` becomes `InvalidArgument`;
- `out_of_range` becomes `OutOfRange`;
- the registry's errors become `UnknownType` and `DuplicateType`;
- a lookup miss in the graph becomes `NotFound`.

`Edges.Clone` keeps the endpoints. `clone` copies the edge with the copy
constructor (`src/Edge.hpp:78`), which copies `mSourceVertex` and
`mTargetVertex`, and then only calls `disassociateFromAll`. So a clone loses
its graph associations and nothing else.

## Model

| member | source | states |
|---|---|---|
| Edges.NewEdge | src/Edge.cpp:5-7 | The label-only constructor stores the label, reports the base class name, leaves both endpoints null and has no graph association |
| Edges.NewEdgeBetween | src/Edge.cpp:9-13 | The three-argument constructor stores exactly the given source, target and label |
| Edges.ClassNameFixedAtCreation | src/Edge.cpp:22-25 | `getClassName` reports `graph_analysis::Edge` for an edge from either constructor, and cloning or setting the label or an endpoint never changes it |
| Edges.AccessorsReadConstructedEndpoints | src/Edge.hpp:45-50 | `getSourceVertex` and `getTargetVertex` give null for a label-only edge and the given vertices for the three-argument constructor |
| Edges.SetSourceVertex | src/Edge.hpp:45-55 | After setting the source, reading it gives the new vertex; the target, label, class and associations are unchanged |
| Edges.SetTargetVertex | src/Edge.hpp:50-60 | After setting the target, reading it gives the new vertex; the source, label, class and associations are unchanged |
| Edges.GetClone | src/Edge.hpp:78-83 | The copy constructor copies every field: same class, label, both endpoint references and associations |
| Edges.Clone | src/Edge.cpp:15-20 | A clone has the original's class, label and endpoints and belongs to no graph |
| Edges.CloneIdempotent | src/Edge.cpp:15-20 | Cloning a clone gives the same edge as cloning once |
| Edges.ToString | src/Edge.cpp:27-32 | The string form is the label when it is non-empty, otherwise the class name |
| Edges.ToStringNonEmpty | src/Edge.cpp:22-32 | A base-class edge never renders as the empty string, since its class name is `graph_analysis::Edge` |
| Edges.InvolvedVertices | src/Edge.cpp:34-57 | The list has 2 to 4 entries and ends with e1's source then e1's target. e0's source (or target) is in the prefix exactly when it is not an endpoint of e1. The prefix holds only e0's endpoints, and its length counts the endpoints that were kept |
| Edges.AreMeetingIffShareEndpoint | src/Edge.cpp:59-62 | `areMeeting(e0, e1)` holds exactly when some endpoint of e0 is identical to some endpoint of e1 |
| Edges.AreMeetingSymmetric | src/Edge.cpp:34-62 | `areMeeting` is symmetric, although the involved-vertex list is built asymmetrically |
| Edges.AreMeetingReflexive | src/Edge.cpp:34-62 | Every edge meets itself, self-loops and null endpoints included |
| Edges.FourDistinctVerticesDoNotMeet | src/Edge.cpp:34-62 | Two edges whose four endpoints are pairwise distinct across the edges do not meet |
| Filters.TxtTypeOfTypeTxt | src/Filter.cpp:7-13 | Every filter type maps back to itself through its name |
| Filters.TypeTxtOfTxtType | src/Filter.cpp:7-13 | Every name the reverse table knows is the name of the type it maps to |
| Filters.PermitTarget | src/Filter.cpp:18-35 | `permitTarget` holds exactly when `evaluateTarget` holds or some edge-context child permits the target |
| Filters.PermitSource | src/Filter.cpp:37-54 | `permitSource` holds exactly when `evaluateSource` holds or some edge-context child permits the source |
| Filters.Permit | src/Filter.cpp:18-54 | If the own predicate (`evaluateTarget` or `evaluateSource`) holds, the filter permits. Otherwise it permits exactly when some child that is an edge-context filter permits |
| Filters.ChildrenPermitFrom | src/Filter.cpp:25-34 | The loop over the children from position i succeeds exactly when some later edge-context child permits |
| Filters.ChildlessFilterFollowsOwnPredicate | src/Filter.cpp:18-34 | A filter without children permits exactly when its own predicate holds, so it denies when the predicate fails |
| Filters.OtherChildrenIgnored | src/Filter.cpp:28-29 | Inserting a child of another filter kind at any position never changes the result |
| Filters.PermitIffSomeLayer | src/Filter.cpp:18-54 | The chain permits exactly when some predicate in its flattened list of edge-context layers holds. Without an explicit permit the chain denies |
| Filters.ChildLayersIffSomeLayer | src/Filter.cpp:25-34 | The children loop succeeds exactly when some layer below those children holds |
| EdgeTypeManager.Empty | src/EdgeTypeManager.hpp:35-40 | A fresh registry has no registered type and its map agrees with its list |
| EdgeTypeManager.RegisterType | src/EdgeTypeManager.hpp:63 | A duplicate with the throw flag fails with DuplicateType. A duplicate without it leaves the registry unchanged. A new type is added to both the map and the list, and the default is unchanged |
| EdgeTypeManager.RegisterClass | src/EdgeTypeManager.hpp:60 | Registering an edge uses its class name as the type. A registered class name fails with DuplicateType when the throw flag is set and leaves the registry unchanged otherwise. A new class name maps to the edge, is added to the supported types, and the default type is kept |
| EdgeTypeManager.RegisterTypePreservesValid | src/EdgeTypeManager.hpp:35-38 | Registration keeps the prototype-map keys equal to the registered-type set |
| EdgeTypeManager.RegisteredTypeIsSupported | src/EdgeTypeManager.hpp:59-63 | After a successful registration the type is supported and nothing else was added. A new type maps to the given prototype |
| EdgeTypeManager.SetDefaultType | src/EdgeTypeManager.hpp:65-73 | `getDefaultType` returns the value last given to `setDefaultType`, and the registrations are unchanged |
| EdgeTypeManager.GetSupportedTypes | src/EdgeTypeManager.hpp:87-88 | The supported types are the keys of the prototype map |
| EdgeTypeManager.EdgeByType | src/EdgeTypeManager.hpp:45-51 | A registered type gives its prototype. An unknown type fails with UnknownType when the flag is set. Otherwise it gives the default type's prototype, or fails if the default is not registered |
| EdgeTypeManager.CreateEdge | src/EdgeTypeManager.hpp:75-82 | Creation succeeds exactly when the lookup does. The new edge has the prototype's class and endpoints, the requested label and no graph association |
| EdgeTypeManager.CreateEdgeBetween | src/EdgeTypeManager.hpp:84-86 | As `createEdge`, but the new edge carries the given source and target |
| EdgeTypeManager.CreateUnknownTypeFails | src/EdgeTypeManager.hpp:75-82 | With `throwOnMissing` set, an unregistered type fails with UnknownType |
| EdgeTypeManager.CreateUnknownTypeFallsBack | src/EdgeTypeManager.hpp:45-51 | With `throwOnMissing` clear, an unregistered type gives a clone of the default type's prototype |
| EdgeTypeManager.CreateAfterRegister | src/EdgeTypeManager.hpp:21-28 | Right after registering a new type, creating an edge of that type gives the labelled clone of the registered prototype |
| EdgeTypeManager.CreateAfterRegisterClass | src/EdgeTypeManager.hpp:59-60 | After registering a prototype under its class name, creating that type gives an edge of that class |
| EdgeTypeManager.ReRegisterFails | src/EdgeTypeManager.hpp:63 | Registering the same type again with `throwOnAlreadyRegistered` fails with DuplicateType |
| EdgeTypeManager.CreatedEdgeIsLabelledClone | src/EdgeTypeManager.hpp:75-82 | A created edge carries the requested label and, with the prototype's label put back, is a clone of the stored prototype |
| EdgeTypeManager.DefaultTypeSurvivesRegistration | src/EdgeTypeManager.hpp:60-73 | Registering a type never changes what `getDefaultType` returns |
| BoostDirectedGraph.EmptyGraph | src/boost_graph/DirectedGraph.hpp:48 | A new graph has empty maps and satisfies the invariant under any counters |
| BoostDirectedGraph.GetVertex | src/boost_graph/DirectedGraph.hpp:58 | An unmapped id is NotFound, and a mapped id gives the vertex stored at its descriptor |
| BoostDirectedGraph.GetEdge | src/boost_graph/DirectedGraph.hpp:59 | An unmapped id is NotFound, and a mapped id gives the edge stored at its descriptor |
| BoostDirectedGraph.LookupNeverInconsistent | src/boost_graph/DirectedGraph.hpp:55-59 | In a consistent graph a lookup fails only with NotFound, never with a stale descriptor |
| BoostDirectedGraph.AddVertex | src/boost_graph/DirectedGraph.hpp:123-127 | The returned id is this graph's counter value and was not mapped before. The counter advances, and only this graph's vertex counter changes. The map gains the id, the id resolves to the vertex, old ids resolve as before, and the invariant holds |
| BoostDirectedGraph.VertexInsertionKeepsConsistent | src/boost_graph/DirectedGraph.hpp:123-127 | Storing a vertex at a fresh descriptor under a fresh id keeps maps and backend consistent |
| BoostDirectedGraph.InsertEdge | src/boost_graph/DirectedGraph.hpp:134-138 | The returned edge id is this graph's counter value and was not mapped before. The counter advances, the map gains exactly that id, the vertex side is unchanged and the invariant holds |
| BoostDirectedGraph.InsertEdgeStores | src/boost_graph/DirectedGraph.hpp:134-138 | The new id resolves to the inserted edge, stored from the given source to the given target descriptor |
| BoostDirectedGraph.InsertEdgeKeepsLookups | src/boost_graph/DirectedGraph.hpp:134-138 | Every previously mapped edge id resolves as before |
| BoostDirectedGraph.InsertEdgeCountersFrame | src/boost_graph/DirectedGraph.hpp:149-150 | Adding an edge leaves the vertex counters and the other graphs' edge counters unchanged |
| BoostDirectedGraph.EdgeInsertionKeepsConsistent | src/boost_graph/DirectedGraph.hpp:134-138 | Storing an edge between live vertices at a fresh descriptor keeps maps and backend consistent |
| BoostDirectedGraph.AddEdge | src/boost_graph/DirectedGraph.hpp:134-138 | An unmapped source id, then an unmapped target id, is NotFound. Otherwise the edge is inserted between the two mapped descriptors |
| BoostDirectedGraph.RemoveVertex | src/boost_graph/DirectedGraph.hpp:129-132 | An unmapped id is NotFound. Otherwise the id is unmapped and the other vertex ids resolve as before. Exactly the edges touching the vertex lose their ids, the remaining edge ids resolve as before, and consistency holds |
| BoostDirectedGraph.VertexRemovalKeepsConsistent | src/boost_graph/DirectedGraph.hpp:129-132 | Dropping a vertex with its incident edges leaves no map entry naming a removed element |
| BoostDirectedGraph.RemoveEdge | src/boost_graph/DirectedGraph.hpp:140-144 | An unmapped id is NotFound. Otherwise only that id is unmapped, other edge ids resolve as before, and the vertices are unchanged |
| BoostDirectedGraph.RemovePreservesValid | src/boost_graph/DirectedGraph.hpp:129-144 | Removals keep the full invariant, including every live id below its counter |
| BoostDirectedGraph.FirstVertexIdIsZero | src/boost_graph/DirectedGraph.hpp:149 | A graph id the counters have never seen issues vertex id 0 first |
| BoostDirectedGraph.SuccessiveVertexIdsDistinct | src/boost_graph/DirectedGraph.hpp:123-127 | Two successive additions get increasing ids, each resolving to its own vertex |
| BoostDirectedGraph.NoIdReuseAfterRemove | src/boost_graph/DirectedGraph.hpp:123-132 | An id freed by removal is not issued again and stays NotFound |
| BoostDirectedGraph.CountersArePerGraph | src/boost_graph/DirectedGraph.hpp:149-150 | Allocating in one graph keeps the other graph valid and does not change the id it issues next |
| BoostDirectedGraph.CreateSubGraph | src/boost_graph/DirectedGraph.hpp:104-108 | A new subgraph has an entry for exactly the base graph's ids, with every vertex and edge enabled |
| BoostDirectedGraph.SubGraphEnablesExactlyLiveIds | src/boost_graph/DirectedGraph.hpp:104-108 | In a new subgraph a vertex or edge id is enabled exactly when it is live in the base graph |
| BoostDirectedGraph.GetEdges | src/boost_graph/DirectedGraph.hpp:110-115 | Every returned edge is stored from source to target, each such stored edge is returned, and the order follows allocation without repeats |
| BoostDirectedGraph.ListedEdgesAreExactlyTheEdgesFromTo | src/boost_graph/DirectedGraph.hpp:110-117 | An edge is in the result exactly when it is stored from source to target |
| LPSolver.TypeTxtInjective | src/algorithms/LPSolver.cpp:20-26 | The four solver types have four distinct names |
| LPSolver.GetInstance | src/algorithms/LPSolver.cpp:31-45 | GLPK always gives a GLPK solver, and SCIP gives a SCIP solver only in a SCIP build. Every other type fails with `invalid_argument` and the source's message |
| LPSolver.GetInstanceRejectsSentinels | src/algorithms/LPSolver.cpp:31-45 | `UNKNOWN_LP_SOLVER` and `LP_SOLVER_TYPE_END` are always refused |
| LPSolver.VariableNameByColumnIdx | src/algorithms/LPSolver.cpp:47-52 | The name is `x` followed by at least one decimal digit, with no leading zero |
| LPSolver.ExtractU32 | src/algorithms/LPSolver.cpp:59 | Leading white space is skipped. If nothing is left, nothing is stored. Otherwise the digit prefix is read: no digits stores 0, and a value above the 32-bit range stores the largest 32-bit value |
| LPSolver.ExtractDigits | src/algorithms/LPSolver.cpp:59 | A non-empty run of digits within the 32-bit range is read as its decimal value |
| LPSolver.ColumnIdxByVariableName | src/algorithms/LPSolver.cpp:54-61 | An empty name fails with `out_of_range`. A name with nothing but white space after its first character leaves `index` unwritten. Otherwise the result is the value `ss >> index` stores from the text after the first character |
| LPSolver.NameWithoutNumberLeavesIndexUnset | src/algorithms/LPSolver.cpp:56-60 | For the names `x` and `x  ` the extraction stores nothing, so the returned `index` is never written |
| LPSolver.ColumnIdxZeroInitialized | src/algorithms/LPSolver.cpp:54-61 | With `index` starting at 0, only the empty name fails. The result agrees with the code whenever the code writes `index`, and is 0 where the code leaves it unwritten |
| LPSolver.ColumnIdxOfVariableName | src/algorithms/LPSolver.cpp:47-61 | Reading back the name of any 32-bit column index gives that index, both as written and with `index` starting at 0 |
| LPSolver.VariableNameInjective | src/algorithms/LPSolver.cpp:47-52 | Distinct column indices get distinct variable names |
| Decimal.NatToString | src/algorithms/LPSolver.cpp:50 | A number is written as at least one decimal digit with no leading zero, and is a single digit exactly when it is below 10 |
| Decimal.DigitsValueOfNatToString | src/algorithms/LPSolver.cpp:50-59 | Reading back the digits written for n gives n |
| Decimal.IntToString | src/algorithms/MultiCommodityVertex.cpp:14 | A signed value is written with a leading minus exactly when negative, followed by the digits of its magnitude |
| Decimal.ParseIntOfIntToString | src/algorithms/MultiCommodityVertex.cpp:14 | Reading back any written integer gives that integer |
| Decimal.IntToStringOfParseInt | src/algorithms/MultiCommodityVertex.cpp:14 | Every text the strict reader accepts is exactly how the writer renders the value read, so leading zeros and `-0` are refused |
| Decimal.NatToStringOfDigitsValue | src/algorithms/LPSolver.cpp:50 | Digits without a leading zero are exactly what the writer produces for their value |
| Decimal.IntToStringAlphabet | src/algorithms/MultiCommodityVertex.cpp:14 | A written integer contains only digits and the minus sign |
| Decimal.DigitPrefixLength | src/algorithms/LPSolver.cpp:59 | The extractor reads the longest digit prefix: all digits, followed by the end of input or a non-digit |
| MultiCommodityVertex.RenderList | src/algorithms/MultiCommodityVertex.cpp:11-19 | The loop that writes each value and a comma after every value but the last produces the comma-joined list |
| MultiCommodityVertex.JoinIntsCommaCount | src/algorithms/MultiCommodityVertex.cpp:11-19 | A section of n values has exactly max(n - 1, 0) commas, so there is no trailing comma |
| MultiCommodityVertex.JoinIntsAlphabet | src/algorithms/MultiCommodityVertex.cpp:11-19 | A section contains only digits, minus signs and commas |
| MultiCommodityVertex.SplitJoinInts | src/algorithms/MultiCommodityVertex.cpp:11-19 | Splitting a non-empty section at its commas gives back each value's own rendering, in order |
| MultiCommodityVertex.ParseAllRenderEach | src/algorithms/MultiCommodityVertex.cpp:14 | Reading back each rendered value gives the original list |
| MultiCommodityVertex.DecodeJoinInts | src/algorithms/MultiCommodityVertex.cpp:11-19 | A section decodes back to exactly its list of values, in order |
| MultiCommodityVertex.Header | src/algorithms/MultiCommodityVertex.cpp:10 | The header of label, class name and supply heading is non-empty and ends with the opening `[` |
| MultiCommodityVertex.ToString | src/algorithms/MultiCommodityVertex.cpp:6-36 | The text starts with the header and ends with `]`, and an empty supply list appears as `[]` |
| MultiCommodityVertex.DecodeBodyOfBody | src/algorithms/MultiCommodityVertex.cpp:11-34 | The text after the header decodes back to the supply list and the flow list |
| MultiCommodityVertex.ToStringDecodes | src/algorithms/MultiCommodityVertex.cpp:6-36 | The text of a vertex decodes back to exactly its supply and minimum-transit-flow lists |
| MultiCommodityVertex.ToStringSectionCommas | src/algorithms/MultiCommodityVertex.cpp:11-32 | In the text, the supply section between the header and the `]` of the line break holds max(n - 1, 0) commas for n values, and so does the flow section between the flow heading and the final `]` |
| MultiCommodityVertex.ToStringLineBreak | src/algorithms/MultiCommodityVertex.cpp:20-23 | The supply section is closed by `]`, followed by a newline and the `min-trans-flow: [` heading |

## Left out

- `EdgeTypeManager.cpp` is not part of this model. The registry follows the header's documented contract. EdgeTypeManager.RegisterType assumes that re-registering a type without the throw flag leaves the registry unchanged; the header does not say, and overwriting the prototype would fit it as well. A fallback to a default type that is itself unregistered is reported as `UnknownType`, rather than as the null prototype the header leaves open.
- EdgeTypeManager.SetDefaultType: accepts any type name. The header documents the default as chosen from the registered types, but does not say what happens otherwise, and the implementation file is not part of this model. An unregistered default shows up only when a lookup falls back to it, as `UnknownType`.
- EdgeTypeManager.Empty: the constructor body is not available, so a fresh registry is assumed to have nothing registered and to take its default type as a parameter.
- Attribute serialization callbacks (`getKnownAttributes`, `getAttributeValues`, `mRegisteredCallbacks`) are left out. They depend on types that are not part of this model.
- `disassociateFromAll` is defined in the element base class, which is not part of this model. It is modelled as clearing the edge's set of graph associations. `setLabel` is likewise taken to replace only the label.
- The implementation file of the boost adapter is not part of this model. Its operations are modelled from the header, as a state machine over id maps, counters and an abstract descriptor store:
  - descriptors are opaque slot numbers, never reused;
  - boost's adjacency-list internals and descriptor reindexing are not modelled.
- BoostDirectedGraph.RemoveVertex and BoostDirectedGraph.RemoveEdge take the element's id rather than the element. Looking up an element's id in a graph belongs to the element base class, which is not part of this model.
- BoostDirectedGraph.RemoveVertex: removing a vertex also drops its incident edges, as removing a vertex from a boost adjacency list requires.
- `copy`, `newInstance`, `validateType`, `write`, `identifyConnectedComponents`, `getVertexDescriptor`, `getEdgeDescriptor`, the vertex and edge iterators, and the `getEdges` overload taking vertex objects are left out. They are declared in the header without behaviour that this model can state.
- BoostDirectedGraph.CreateSubGraph: the subgraph is a plain map of enabled flags per id. The subgraph classes themselves are not part of this model.
- BoostDirectedGraph.GetEdges: the backend's edge storage is scanned in allocation order. The backend's own iteration order over parallel edges is taken to be that order.
- BoostDirectedGraph.FirstVertexIdIsZero: the header declares the per-graph counters but not how they are read. The model assumes the new id is the counter's value before it is incremented, so the first id is 0 and BoostDirectedGraph.AddVertex and BoostDirectedGraph.InsertEdge return the counter's old value. The implementation file that decides this is not part of this model.
- `GraphElementId` is an unbounded natural number, so counter overflow of the C++ integer type is not modelled.
- `shared_ptr` reference counting and object lifetime are left out. Vertices are opaque handles compared by identity.
- `LPSolver::saveProblemToTempfile` and `saveSolutionToTempfile` are left out: they use the file system and call the external solver.
- The choice of GLPK or SCIP at build time (`WITH_SCIP`) becomes the parameter `withScip` of `LPSolver.GetInstance`. The solver objects themselves are not modelled.
- LPSolver.ColumnIdxByVariableName: a name is a sequence of characters and `substr(1)` drops one of them, whereas C++ drops one byte. The model agrees with the source only when the first character is ASCII.
- LPSolver.ExtractU32: follows the C++11 rules for `operator>>` into `uint32_t`. If the input is exhausted after skipping white space, nothing is stored. If no digit follows, 0 is stored. If the value is out of range, the largest value is stored. Earlier C++ standards leave the value unchanged in the last two cases.
- LPSolver.ExtractU32: a leading `+` or `-` sign, which C++ stream extraction into an unsigned type would also accept, is not modelled.
- MultiCommodityVertex.ToString takes the label and class name as parameters. The vertex class and its `getClassName` are not part of this model.
- Filter kinds other than edge-context filters, and the predicates `evaluateTarget`/`evaluateSource` themselves, are abstract.

## Findings

| source | as written | input that shows it | evidently intended | confidence | as-written member | corrected member |
|---|---|---|---|---|---|---|
| src/algorithms/LPSolver.cpp:56-60 | `uint32_t index;` is not initialized, and `ss >> index` stores nothing when only white space follows the first character, so an indeterminate value is returned | `"x"` or `"x  "` | `index` starts at 0, so such a name gives column 0 | not executed | LPSolver.NameWithoutNumberLeavesIndexUnset | LPSolver.ColumnIdxZeroInitialized |

=== FILE: decimal.dfy ===
/**
  Decimal rendering of integers as C++ output string streams write them
  (`ss << n` in the default `std::dec` format), a strict reader that accepts
  exactly the texts the writer produces and inverts it, and the digit-prefix
  scan on which the model of stream extraction builds.
 */
module Decimal {
  import opened Wrappers

  predicate IsDigit(c: char) {
    '0' <= c <= '9'
  }

  predicate AllDigits(s: string) {
    forall i :: 0 <= i < |s| ==> IsDigit(s[i])
  }

  function DigitChar(d: nat): (c: char)
    requires d < 10
    ensures IsDigit(c)
    ensures DigitValue(c) == d
  {
    ('0' as int + d) as char
  }

  function DigitValue(c: char): (d: nat)
    requires IsDigit(c)
    ensures d < 10
  {
    c as int - '0' as int
  }

  /** The decimal digits of `n`, most significant first, without leading zeros. */
  function NatToString(n: nat): (s: string)
    ensures 1 <= |s|
    ensures AllDigits(s)
    ensures 1 < |s| ==> s[0] != '0'
    ensures n < 10 <==> |s| == 1
  {
    if n < 10 then [DigitChar(n)] else NatToString(n / 10) + [DigitChar(n % 10)]
  }

  /** The value of a string of decimal digits (the empty string has value 0). */
  function DigitsValue(s: string): nat
    requires AllDigits(s)
  {
    if s == [] then 0 else DigitsValue(s[..|s| - 1]) * 10 + DigitValue(s[|s| - 1])
  }

  /** Rendering a natural number and reading its digits back gives the number. */
  lemma {:induction false} DigitsValueOfNatToString(n: nat)
    ensures DigitsValue(NatToString(n)) == n
  {
    var s := NatToString(n);
    if n >= 10 {
      DigitsValueOfNatToString(n / 10);
      assert s[..|s| - 1] == NatToString(n / 10);
    }
  }

  /** `ss << x` for a signed integer: a minus sign, then the digits of |x|. */
  function IntToString(x: int): (s: string)
    ensures 1 <= |s|
    ensures x < 0 <==> s[0] == '-'
    ensures x >= 0 ==> s == NatToString(x)
    ensures x < 0 ==> s[1..] == NatToString(-x)
  {
    if x < 0 then "-" + NatToString(-x) else NatToString(x)
  }

  /** At least one digit, and no leading zero unless the number is `0` itself. */
  predicate CanonicalDigits(s: string) {
    0 < |s| && AllDigits(s) && (1 < |s| ==> s[0] != '0')
  }

  /**
    Strict reading of an integer written by `IntToString`: canonical digits,
    optionally after a minus sign that may not precede `0`.
   */
  function ParseInt(s: string): Option<int> {
    if 1 < |s| && s[0] == '-' && CanonicalDigits(s[1..]) && s[1..] != "0" then
      Some(-(DigitsValue(s[1..]) as int))
    else if CanonicalDigits(s) then Some(DigitsValue(s))
    else None
  }

  /** Canonical digits are exactly what `NatToString` writes for their value. */
  lemma {:induction false} NatToStringOfDigitsValue(s: string)
    requires CanonicalDigits(s)
    ensures NatToString(DigitsValue(s)) == s
  {
    var v := DigitsValue(s);
    if |s| == 1 {
      assert s[..0] == [] && v == DigitValue(s[0]);
      assert s == [DigitChar(v)];
    } else {
      var p := s[..|s| - 1];
      assert p[0] == s[0];
      NatToStringOfDigitsValue(p);
      assert NatToString(0) == "0";
      assert DigitsValue(p) != 0;
      assert v / 10 == DigitsValue(p) && v % 10 == DigitValue(s[|s| - 1]);
      assert s == p + [s[|s| - 1]];
    }
  }

  /** Whatever `ParseInt` accepts is written back by `IntToString` as the same text. */
  lemma IntToStringOfParseInt(s: string)
    ensures ParseInt(s).Some? ==> IntToString(ParseInt(s).value) == s
  {
    if 1 < |s| && s[0] == '-' && CanonicalDigits(s[1..]) && s[1..] != "0" {
      NatToStringOfDigitsValue(s[1..]);
      assert s == "-" + s[1..];
    } else if CanonicalDigits(s) {
      NatToStringOfDigitsValue(s);
    }
  }

  /** `ParseInt` inverts `IntToString` on every integer. */
  lemma ParseIntOfIntToString(x: int)
    ensures ParseInt(IntToString(x)) == Some(x)
  {
    var s := IntToString(x);
    if x < 0 {
      var digits := NatToString(-x);
      assert s[1..] == digits && 1 < |s| && s[0] == '-';
      DigitsValueOfNatToString(-x);
      assert digits != "0";
      assert ParseInt(s) == Some(-(DigitsValue(digits) as int));
    } else {
      assert s[0] != '-';
      DigitsValueOfNatToString(x);
    }
  }

  /** No rendered integer contains the character `c` unless `c` is a digit or the minus sign. */
  lemma IntToStringAlphabet(x: int, c: char)
    requires !IsDigit(c) && c != '-'
    ensures c !in IntToString(x)
  {
  }

  /** The length of the longest prefix of `s` made of decimal digits. */
  function DigitPrefixLength(s: string): (k: nat)
    ensures k <= |s|
    ensures AllDigits(s[..k])
    ensures k < |s| ==> !IsDigit(s[k])
  {
    if s == [] || !IsDigit(s[0]) then 0
    else
      var k := 1 + DigitPrefixLength(s[1..]);
      assert s[..k] == [s[0]] + s[1..][..k - 1];
      k
  }

  /** A string made only of digits is its own longest digit prefix. */
  lemma DigitPrefixOfDigits(s: string)
    requires AllDigits(s)
    ensures DigitPrefixLength(s) == |s|
  {
  }
}

=== FILE: directed_graph.dfy ===
/**
  The id bookkeeping of the boost-backed directed graph adapter. Each graph
  instance maps its element ids to the backend's native descriptors
  (`mVertexMap`, `mEdgeMap`); fresh ids come from class-wide counters keyed
  by the graph's id (`msNewVertexId`, `msNewEdgeId`). The backend's
  adjacency list is modelled as two stores keyed by opaque descriptors.
 */
module BoostDirectedGraph {
  import opened Wrappers
  import opened Edges

  /** Native vertex handle of the backend; opaque apart from identity. */
  datatype VertexDescriptor = VertexDescriptor(slot: nat)

  /** Native edge handle of the backend; opaque apart from identity. */
  datatype EdgeDescriptor = EdgeDescriptor(slot: nat)

  /**
    A vertex as the backend stores it: the vertex object, together with the id
    the object carries for this graph.
   */
  datatype StoredVertex = StoredVertex(id: GraphElementId, vertex: VertexHandle)

  /** An edge as the backend stores it: the edge object, its id in this graph and its two endpoint descriptors. */
  datatype StoredEdge = StoredEdge(id: GraphElementId, edge: Edge, source: VertexDescriptor, target: VertexDescriptor)

  datatype GraphError =
    | NotFound(id: GraphElementId)
    | InconsistentDescriptor(id: GraphElementId)

  /** The class-wide id counters, shared by every graph instance and keyed by graph id. */
  datatype IdCounters = IdCounters(
    newVertexId: map<GraphId, GraphElementId>,
    newEdgeId: map<GraphId, GraphElementId>)

  /** The next vertex id of graph `gid`; a graph without an entry starts at 0. */
  function NextVertexId(c: IdCounters, gid: GraphId): GraphElementId {
    if gid in c.newVertexId then c.newVertexId[gid] else 0
  }

  /** The next edge id of graph `gid`; a graph without an entry starts at 0. */
  function NextEdgeId(c: IdCounters, gid: GraphId): GraphElementId {
    if gid in c.newEdgeId then c.newEdgeId[gid] else 0
  }

  /** Counters before any graph has allocated an id. */
  const NoCounters: IdCounters := IdCounters(map[], map[])

  datatype DirectedGraph = DirectedGraph(
    graphId: GraphId,
    vertexMap: map<GraphElementId, VertexDescriptor>,
    edgeMap: map<GraphElementId, EdgeDescriptor>,
    vertices: map<VertexDescriptor, StoredVertex>,
    edges: map<EdgeDescriptor, StoredEdge>,
    nextVertexSlot: nat,
    nextEdgeSlot: nat)

  /** Every vertex id names a live vertex carrying that id, and every live vertex is named by its id. */
  ghost predicate VertexMapMatches(g: DirectedGraph) {
    && (forall id :: id in g.vertexMap ==> g.vertexMap[id] in g.vertices && g.vertices[g.vertexMap[id]].id == id)
    && (forall d :: d in g.vertices ==> g.vertices[d].id in g.vertexMap && g.vertexMap[g.vertices[d].id] == d)
  }

  /** Every edge id names a live edge carrying that id, and every live edge is named by its id. */
  ghost predicate EdgeMapMatches(g: DirectedGraph) {
    && (forall id :: id in g.edgeMap ==> g.edgeMap[id] in g.edges && g.edges[g.edgeMap[id]].id == id)
    && (forall d :: d in g.edges ==> g.edges[d].id in g.edgeMap && g.edgeMap[g.edges[d].id] == d)
  }

  /** The backend's own invariants: descriptors lie below its allocation marks and edges join live vertices. */
  ghost predicate BackendWellFormed(g: DirectedGraph) {
    && (forall d :: d in g.vertices ==> d.slot < g.nextVertexSlot)
    && (forall d :: d in g.edges ==> d.slot < g.nextEdgeSlot)
    && (forall d :: d in g.edges ==> g.edges[d].source in g.vertices && g.edges[d].target in g.vertices)
  }

  /**
    The descriptor maps agree with the backend: every mapped id names a live
    element and every live element has exactly one id.
   */
  ghost predicate Consistent(g: DirectedGraph) {
    VertexMapMatches(g) && EdgeMapMatches(g) && BackendWellFormed(g)
  }

  /** Every live id of the graph was issued by the counters of its graph id. */
  ghost predicate IdsIssued(c: IdCounters, g: DirectedGraph) {
    && (forall id :: id in g.vertexMap ==> id < NextVertexId(c, g.graphId))
    && (forall id :: id in g.edgeMap ==> id < NextEdgeId(c, g.graphId))
  }

  ghost predicate Valid(c: IdCounters, g: DirectedGraph) {
    Consistent(g) && IdsIssued(c, g)
  }

  /** A graph instance with no elements. */
  function EmptyGraph(gid: GraphId): (g: DirectedGraph)
    ensures g.graphId == gid
    ensures forall c :: Valid(c, g)
    ensures g.vertexMap == map[] && g.edgeMap == map[]
  {
    DirectedGraph(gid, map[], map[], map[], map[], 0, 0)
  }

  /** The outcome of an insertion: the updated counters and graph, and the id issued. */
  datatype Added = Added(counters: IdCounters, graph: DirectedGraph, id: GraphElementId)

  /** `getVertex(id)`: the vertex stored under `id`; a stale map entry is reported, never guessed around. */
  function GetVertex(g: DirectedGraph, id: GraphElementId): (res: Result<VertexHandle, GraphError>)
    ensures id !in g.vertexMap ==> res == Failure(NotFound(id))
    ensures id in g.vertexMap && g.vertexMap[id] in g.vertices ==> res == Success(g.vertices[g.vertexMap[id]].vertex)
  {
    if id !in g.vertexMap then Failure(NotFound(id))
    else if g.vertexMap[id] !in g.vertices then Failure(InconsistentDescriptor(id))
    else Success(g.vertices[g.vertexMap[id]].vertex)
  }

  /** `getEdge(id)`: the edge stored under `id`; a stale map entry is reported, never guessed around. */
  function GetEdge(g: DirectedGraph, id: GraphElementId): (res: Result<Edge, GraphError>)
    ensures id !in g.edgeMap ==> res == Failure(NotFound(id))
    ensures id in g.edgeMap && g.edgeMap[id] in g.edges ==> res == Success(g.edges[g.edgeMap[id]].edge)
  {
    if id !in g.edgeMap then Failure(NotFound(id))
    else if g.edgeMap[id] !in g.edges then Failure(InconsistentDescriptor(id))
    else Success(g.edges[g.edgeMap[id]].edge)
  }

  /** In a consistent graph a lookup never meets a stale descriptor. */
  lemma LookupNeverInconsistent(g: DirectedGraph, id: GraphElementId)
    requires Consistent(g)
    ensures GetVertex(g, id).Failure? ==> GetVertex(g, id).error == NotFound(id)
    ensures GetEdge(g, id).Failure? ==> GetEdge(g, id).error == NotFound(id)
  {
  }

  /**
    `addVertexInternal`: a new backend vertex, recorded in the vertex map
    under the next id of this graph's counter.
   */
  function AddVertex(c: IdCounters, g: DirectedGraph, v: VertexHandle): (a: Added)
    requires Valid(c, g)
    ensures a.id == NextVertexId(c, g.graphId) && a.id !in g.vertexMap
    ensures NextVertexId(a.counters, g.graphId) == a.id + 1
    ensures forall h :: h != g.graphId ==> NextVertexId(a.counters, h) == NextVertexId(c, h)
    ensures forall h :: NextEdgeId(a.counters, h) == NextEdgeId(c, h)
    ensures a.graph.graphId == g.graphId
    ensures Valid(a.counters, a.graph)
    ensures GetVertex(a.graph, a.id) == Success(v)
    ensures a.graph.vertexMap.Keys == g.vertexMap.Keys + {a.id}
    ensures forall id :: id in g.vertexMap ==> GetVertex(a.graph, id) == GetVertex(g, id)
    ensures a.graph.edgeMap == g.edgeMap && a.graph.edges == g.edges
  {
    var id := NextVertexId(c, g.graphId);
    var d := VertexDescriptor(g.nextVertexSlot);
    var g' := g.(vertexMap := g.vertexMap[id := d],
                 vertices := g.vertices[d := StoredVertex(id, v)],
                 nextVertexSlot := g.nextVertexSlot + 1);
    var c' := c.(newVertexId := c.newVertexId[g.graphId := id + 1]);
    VertexInsertionKeepsConsistent(g, id, v);
    Added(c', g', id)
  }

  /** Storing a vertex at the next free slot under a fresh id keeps the graph consistent. */
  lemma VertexInsertionKeepsConsistent(g: DirectedGraph, id: GraphElementId, v: VertexHandle)
    requires Consistent(g) && id !in g.vertexMap
    ensures var d := VertexDescriptor(g.nextVertexSlot);
      Consistent(g.(vertexMap := g.vertexMap[id := d],
                    vertices := g.vertices[d := StoredVertex(id, v)],
                    nextVertexSlot := g.nextVertexSlot + 1))
  {
    var d := VertexDescriptor(g.nextVertexSlot);
    var g' := g.(vertexMap := g.vertexMap[id := d],
                 vertices := g.vertices[d := StoredVertex(id, v)],
                 nextVertexSlot := g.nextVertexSlot + 1);
    assert d !in g.vertices;
    assert VertexMapMatches(g');
    assert EdgeMapMatches(g');
    assert BackendWellFormed(g');
  }

  /**
    The insertion step of `addEdgeInternal`: a new backend edge from the
    vertex `sd` to the vertex `td`, recorded in the edge map under the next id
    of this graph's edge counter.
   */
  function InsertEdge(c: IdCounters, g: DirectedGraph, e: Edge, sd: VertexDescriptor, td: VertexDescriptor)
    : (a: Added)
    requires Valid(c, g) && sd in g.vertices && td in g.vertices
    ensures a.id == NextEdgeId(c, g.graphId) && a.id !in g.edgeMap
    ensures NextEdgeId(a.counters, g.graphId) == a.id + 1
    ensures a.graph.graphId == g.graphId
    ensures Valid(a.counters, a.graph)
    ensures a.graph.edgeMap.Keys == g.edgeMap.Keys + {a.id}
    ensures a.graph.vertexMap == g.vertexMap && a.graph.vertices == g.vertices
  {
    var id := NextEdgeId(c, g.graphId);
    var d := EdgeDescriptor(g.nextEdgeSlot);
    var g' := g.(edgeMap := g.edgeMap[id := d],
                 edges := g.edges[d := StoredEdge(id, e, sd, td)],
                 nextEdgeSlot := g.nextEdgeSlot + 1);
    var c' := c.(newEdgeId := c.newEdgeId[g.graphId := id + 1]);
    EdgeInsertionKeepsConsistent(g, id, e, sd, td);
    Added(c', g', id)
  }

  /** The new id resolves to the inserted edge, stored from `sd` to `td`. */
  lemma InsertEdgeStores(c: IdCounters, g: DirectedGraph, e: Edge, sd: VertexDescriptor, td: VertexDescriptor)
    requires Valid(c, g) && sd in g.vertices && td in g.vertices
    ensures var a := InsertEdge(c, g, e, sd, td);
      && GetEdge(a.graph, a.id) == Success(e)
      && a.graph.edges[a.graph.edgeMap[a.id]].source == sd
      && a.graph.edges[a.graph.edgeMap[a.id]].target == td
  {
  }

  /** Inserting an edge leaves every earlier edge id resolving as before. */
  lemma InsertEdgeKeepsLookups(c: IdCounters, g: DirectedGraph, e: Edge, sd: VertexDescriptor, td: VertexDescriptor)
    requires Valid(c, g) && sd in g.vertices && td in g.vertices
    ensures var a := InsertEdge(c, g, e, sd, td);
      forall id :: id in g.edgeMap ==> GetEdge(a.graph, id) == GetEdge(g, id)
  {
  }

  /** Inserting an edge advances only this graph's edge counter. */
  lemma InsertEdgeCountersFrame(c: IdCounters, g: DirectedGraph, e: Edge, sd: VertexDescriptor, td: VertexDescriptor)
    requires Valid(c, g) && sd in g.vertices && td in g.vertices
    ensures var a := InsertEdge(c, g, e, sd, td);
      && (forall h :: h != g.graphId ==> NextEdgeId(a.counters, h) == NextEdgeId(c, h))
      && (forall h :: NextVertexId(a.counters, h) == NextVertexId(c, h))
  {
  }

  /** Storing an edge at the next free slot under a fresh id keeps the graph consistent. */
  lemma EdgeInsertionKeepsConsistent(g: DirectedGraph, id: GraphElementId, e: Edge, sd: VertexDescriptor, td: VertexDescriptor)
    requires Consistent(g) && id !in g.edgeMap && sd in g.vertices && td in g.vertices
    ensures var d := EdgeDescriptor(g.nextEdgeSlot);
      Consistent(g.(edgeMap := g.edgeMap[id := d],
                    edges := g.edges[d := StoredEdge(id, e, sd, td)],
                    nextEdgeSlot := g.nextEdgeSlot + 1))
    ensures var d := EdgeDescriptor(g.nextEdgeSlot);
      forall k :: k in g.edgeMap ==> g.edgeMap[k] != d
  {
    var d := EdgeDescriptor(g.nextEdgeSlot);
    var g' := g.(edgeMap := g.edgeMap[id := d],
                 edges := g.edges[d := StoredEdge(id, e, sd, td)],
                 nextEdgeSlot := g.nextEdgeSlot + 1);
    assert d !in g.edges;
    assert VertexMapMatches(g');
    assert EdgeMapMatches(g');
    assert BackendWellFormed(g');
  }

  /**
    `addEdgeInternal(edge, sourceVertexId, targetVertexId)`: inserts the edge
    between the vertices stored under the two ids; an endpoint id that is not
    live in this graph is `NotFound`.
   */
  function AddEdge(c: IdCounters, g: DirectedGraph, e: Edge, sourceId: GraphElementId, targetId: GraphElementId)
    : (res: Result<Added, GraphError>)
    requires Valid(c, g)
    ensures sourceId !in g.vertexMap ==> res == Failure(NotFound(sourceId))
    ensures sourceId in g.vertexMap && targetId !in g.vertexMap ==> res == Failure(NotFound(targetId))
    ensures sourceId in g.vertexMap && targetId in g.vertexMap ==>
      && res.Success?
      && GetEdge(res.value.graph, res.value.id) == Success(e)
      && res.value.graph.edges[res.value.graph.edgeMap[res.value.id]].source == g.vertexMap[sourceId]
      && res.value.graph.edges[res.value.graph.edgeMap[res.value.id]].target == g.vertexMap[targetId]
      && res.value == InsertEdge(c, g, e, g.vertexMap[sourceId], g.vertexMap[targetId])
  {
    if sourceId !in g.vertexMap then Failure(NotFound(sourceId))
    else if targetId !in g.vertexMap then Failure(NotFound(targetId))
    else
      InsertEdgeStores(c, g, e, g.vertexMap[sourceId], g.vertexMap[targetId]);
      Success(InsertEdge(c, g, e, g.vertexMap[sourceId], g.vertexMap[targetId]))
  }

  /** The stored edge touches the vertex `d` at either end. */
  predicate Touches(se: StoredEdge, d: VertexDescriptor) {
    se.source == d || se.target == d
  }

  /**
    `removeVertexInternal`: removes the vertex stored under `id` from the
    backend together with its incident edges, and drops their ids from the
    maps so that no id is left naming a removed element.
   */
  function RemoveVertex(g: DirectedGraph, id: GraphElementId): (res: Result<DirectedGraph, GraphError>)
    requires Consistent(g)
    ensures id !in g.vertexMap ==> res == Failure(NotFound(id))
    ensures id in g.vertexMap ==> res.Success?
    ensures res.Success? ==>
      var g' := res.value;
      && Consistent(g')
      && g'.graphId == g.graphId
      && g'.vertexMap.Keys == g.vertexMap.Keys - {id}
      && GetVertex(g', id) == Failure(NotFound(id))
      && (forall k :: k in g'.vertexMap ==> GetVertex(g', k) == GetVertex(g, k))
      && g'.edgeMap.Keys <= g.edgeMap.Keys
      && (forall k :: k in g.edgeMap ==>
            (k in g'.edgeMap <==> !Touches(g.edges[g.edgeMap[k]], g.vertexMap[id])))
      && (forall k :: k in g'.edgeMap ==> GetEdge(g', k) == GetEdge(g, k))
  {
    if id !in g.vertexMap then Failure(NotFound(id))
    else
      var d := g.vertexMap[id];
      var keptIds := map k | k in g.edgeMap && !Touches(g.edges[g.edgeMap[k]], d) :: g.edgeMap[k];
      var keptEdges := map ed | ed in g.edges && !Touches(g.edges[ed], d) :: g.edges[ed];
      VertexRemovalKeepsConsistent(g, id);
      Success(g.(vertexMap := g.vertexMap - {id}, vertices := g.vertices - {d},
                 edgeMap := keptIds, edges := keptEdges))
  }

  /** Dropping a vertex together with every edge that touches it keeps the graph consistent. */
  lemma VertexRemovalKeepsConsistent(g: DirectedGraph, id: GraphElementId)
    requires Consistent(g) && id in g.vertexMap
    ensures var d := g.vertexMap[id];
      Consistent(g.(vertexMap := g.vertexMap - {id}, vertices := g.vertices - {d},
                    edgeMap := map k | k in g.edgeMap && !Touches(g.edges[g.edgeMap[k]], d) :: g.edgeMap[k],
                    edges := map ed | ed in g.edges && !Touches(g.edges[ed], d) :: g.edges[ed]))
  {
    var d := g.vertexMap[id];
    var g' := g.(vertexMap := g.vertexMap - {id}, vertices := g.vertices - {d},
                 edgeMap := map k | k in g.edgeMap && !Touches(g.edges[g.edgeMap[k]], d) :: g.edgeMap[k],
                 edges := map ed | ed in g.edges && !Touches(g.edges[ed], d) :: g.edges[ed]);
    assert VertexMapMatches(g');
    assert EdgeMapMatches(g');
    assert BackendWellFormed(g');
  }

  /**
    `removeEdgeInternal`: removes the edge stored under `id` from the backend
    and drops `id` from the edge map; every other id still resolves.
   */
  function RemoveEdge(g: DirectedGraph, id: GraphElementId): (res: Result<DirectedGraph, GraphError>)
    requires Consistent(g)
    ensures id !in g.edgeMap ==> res == Failure(NotFound(id))
    ensures id in g.edgeMap ==> res.Success?
    ensures res.Success? ==>
      var g' := res.value;
      && Consistent(g')
      && g'.graphId == g.graphId
      && g'.edgeMap.Keys == g.edgeMap.Keys - {id}
      && GetEdge(g', id) == Failure(NotFound(id))
      && (forall k :: k in g'.edgeMap ==> GetEdge(g', k) == GetEdge(g, k))
      && g'.vertexMap == g.vertexMap && g'.vertices == g.vertices
  {
    if id !in g.edgeMap then Failure(NotFound(id))
    else Success(g.(edgeMap := g.edgeMap - {id}, edges := g.edges - {g.edgeMap[id]}))
  }

  /** Removal keeps every remaining id below its counter. */
  lemma RemovePreservesValid(c: IdCounters, g: DirectedGraph, vid: GraphElementId, eid: GraphElementId)
    requires Valid(c, g)
    ensures RemoveVertex(g, vid).Success? ==> Valid(c, RemoveVertex(g, vid).value)
    ensures RemoveEdge(g, eid).Success? ==> Valid(c, RemoveEdge(g, eid).value)
  {
  }

  /** The first vertex id issued in a graph the counters have never seen is 0. */
  lemma FirstVertexIdIsZero(c: IdCounters, gid: GraphId, v: VertexHandle)
    requires gid !in c.newVertexId
    ensures AddVertex(c, EmptyGraph(gid), v).id == 0
  {
  }

  /** Two vertices added one after the other get distinct ids and each id resolves to its own vertex. */
  lemma SuccessiveVertexIdsDistinct(c: IdCounters, g: DirectedGraph, v1: VertexHandle, v2: VertexHandle)
    requires Valid(c, g)
    ensures var a1 := AddVertex(c, g, v1);
      var a2 := AddVertex(a1.counters, a1.graph, v2);
      && a1.id < a2.id
      && GetVertex(a2.graph, a1.id) == Success(v1)
      && GetVertex(a2.graph, a2.id) == Success(v2)
  {
  }

  /** An id freed by a removal is not handed out again to the next vertex. */
  lemma NoIdReuseAfterRemove(c: IdCounters, g: DirectedGraph, v1: VertexHandle, v2: VertexHandle)
    requires Valid(c, g)
    ensures var a1 := AddVertex(c, g, v1);
      var r := RemoveVertex(a1.graph, a1.id);
      && r.Success?
      && var a2 := AddVertex(a1.counters, r.value, v2);
      && a2.id != a1.id
      && GetVertex(a2.graph, a1.id) == Failure(NotFound(a1.id))
  {
    var a1 := AddVertex(c, g, v1);
    RemovePreservesValid(a1.counters, a1.graph, a1.id, 0);
  }

  /** Allocations in one graph never advance the counter of another graph. */
  lemma CountersArePerGraph(c: IdCounters, g: DirectedGraph, h: DirectedGraph, v: VertexHandle)
    requires Valid(c, g) && Valid(c, h) && g.graphId != h.graphId
    ensures var a := AddVertex(c, g, v);
      && Valid(a.counters, h)
      && AddVertex(a.counters, h, v).id == AddVertex(c, h, v).id
  {
  }

  /** A subgraph view: an enabled flag per vertex id and per edge id of its base graph. */
  datatype SubGraph = SubGraph(vertexEnabled: map<GraphElementId, bool>, edgeEnabled: map<GraphElementId, bool>)

  predicate VertexEnabled(s: SubGraph, id: GraphElementId) {
    id in s.vertexEnabled && s.vertexEnabled[id]
  }

  predicate EdgeEnabled(s: SubGraph, id: GraphElementId) {
    id in s.edgeEnabled && s.edgeEnabled[id]
  }

  /** `createSubGraph`: a view in which every vertex and every edge of the base graph is enabled. */
  function CreateSubGraph(g: DirectedGraph): (s: SubGraph)
    ensures s.vertexEnabled.Keys == g.vertexMap.Keys && s.edgeEnabled.Keys == g.edgeMap.Keys
    ensures forall id :: id in g.vertexMap ==> VertexEnabled(s, id)
    ensures forall id :: id in g.edgeMap ==> EdgeEnabled(s, id)
  {
    SubGraph(map id | id in g.vertexMap :: true, map id | id in g.edgeMap :: true)
  }

  /** A new view enables an id exactly when the id is live in the base graph. */
  lemma SubGraphEnablesExactlyLiveIds(g: DirectedGraph, id: GraphElementId)
    ensures VertexEnabled(CreateSubGraph(g), id) <==> id in g.vertexMap
    ensures EdgeEnabled(CreateSubGraph(g), id) <==> id in g.edgeMap
  {
  }

  /** `d` is a live edge stored from `source` to `target`. */
  predicate LeadsFromTo(g: DirectedGraph, d: EdgeDescriptor, source: VertexDescriptor, target: VertexDescriptor) {
    d in g.edges && g.edges[d].source == source && g.edges[d].target == target
  }

  /**
    `r` lists, through the descriptors `ds`, every edge stored from `source`
    to `target` exactly once, in the order the backend allocated them.
   */
  ghost predicate ListsEdgesFromTo(g: DirectedGraph, source: VertexDescriptor, target: VertexDescriptor,
                                   r: seq<Edge>, ds: seq<EdgeDescriptor>) {
    && |ds| == |r|
    && (forall i :: 0 <= i < |ds| ==> LeadsFromTo(g, ds[i], source, target) && g.edges[ds[i]].edge == r[i])
    && (forall i, j :: 0 <= i < j < |ds| ==> ds[i].slot < ds[j].slot)
    && (forall d :: LeadsFromTo(g, d, source, target) ==> d in ds)
  }

  /**
    `getEdges(source, target)`: the edges stored from `source` to `target`,
    each once, in the order the backend allocated them. `ds` names the
    descriptor behind each returned edge.
   */
  method GetEdges(g: DirectedGraph, source: VertexDescriptor, target: VertexDescriptor)
    returns (r: seq<Edge>, ghost ds: seq<EdgeDescriptor>)
    requires BackendWellFormed(g)
    ensures ListsEdgesFromTo(g, source, target, r, ds)
    ensures forall x :: x in r <==> exists d :: LeadsFromTo(g, d, source, target) && g.edges[d].edge == x
  {
    r, ds := [], [];
    var slot := 0;
    while slot < g.nextEdgeSlot
      invariant slot <= g.nextEdgeSlot
      invariant |ds| == |r|
      invariant forall i :: 0 <= i < |ds| ==> LeadsFromTo(g, ds[i], source, target) && g.edges[ds[i]].edge == r[i]
      invariant forall i :: 0 <= i < |ds| ==> ds[i].slot < slot
      invariant forall i, j :: 0 <= i < j < |ds| ==> ds[i].slot < ds[j].slot
      invariant forall d :: LeadsFromTo(g, d, source, target) && d.slot < slot ==> d in ds
    {
      var d := EdgeDescriptor(slot);
      if LeadsFromTo(g, d, source, target) {
        r, ds := r + [g.edges[d].edge], ds + [d];
      }
      slot := slot + 1;
    }
    forall x {
      ListedEdgesAreExactlyTheEdgesFromTo(g, source, target, r, ds, x);
    }
  }

  /** An edge is in the list `getEdges` returns exactly when it is stored from `source` to `target`. */
  lemma ListedEdgesAreExactlyTheEdgesFromTo(g: DirectedGraph, source: VertexDescriptor, target: VertexDescriptor,
                                            r: seq<Edge>, ds: seq<EdgeDescriptor>, x: Edge)
    requires ListsEdgesFromTo(g, source, target, r, ds)
    ensures x in r <==> exists d :: LeadsFromTo(g, d, source, target) && g.edges[d].edge == x
  {
    if x in r {
      var i :| 0 <= i < |r| && r[i] == x;
      assert LeadsFromTo(g, ds[i], source, target);
    }
    if exists d :: LeadsFromTo(g, d, source, target) && g.edges[d].edge == x {
      var d :| LeadsFromTo(g, d, source, target) && g.edges[d].edge == x;
      var i :| 0 <= i < |ds| && ds[i] == d;
      assert r[i] == x;
    }
  }
}

=== FILE: edge.dfy ===
/**
  The edge element of the graph abstraction: a label, a class name and two
  shared references to vertices. Vertex references are opaque handles that are
  compared by identity, as `shared_ptr` comparison does; a null reference is
  `None`, and two null references compare equal.
 */
module Edges {
  import opened Wrappers

  /** Identity of one graph instance. */
  type GraphId = nat

  /** Identity of an element inside one graph instance. */
  type GraphElementId = nat

  /** An opaque vertex object; two handles are the same vertex iff they are equal. */
  datatype VertexHandle = VertexHandle(address: nat)

  /** A possibly null `Vertex::Ptr`. */
  type VertexRef = Option<VertexHandle>

  /** Class name reported by the base edge class. */
  const EdgeClassName: string := "graph_analysis::Edge"

  /**
    An edge object. `className` is what the concrete class's `getClassName`
    returns; `associations` records the graphs the object is associated with.
   */
  datatype Edge = Edge(
    className: string,
    labelText: string,
    source: VertexRef,
    target: VertexRef,
    associations: set<GraphId>)

  /** `Edge(label)`: a base-class edge without endpoints. */
  function NewEdge(labelText: string): (e: Edge)
    ensures e.source == None && e.target == None
    ensures e.labelText == labelText && e.className == EdgeClassName
    ensures e.associations == {}
  {
    Edge(EdgeClassName, labelText, None, None, {})
  }

  /** `Edge(source, target, label)`: a base-class edge between the given vertices. */
  function NewEdgeBetween(source: VertexRef, target: VertexRef, labelText: string): (e: Edge)
    ensures e.source == source && e.target == target
    ensures e.labelText == labelText && e.className == EdgeClassName
    ensures e.associations == {}
  {
    Edge(EdgeClassName, labelText, source, target, {})
  }

  function GetSourceVertex(e: Edge): VertexRef {
    e.source
  }

  function GetTargetVertex(e: Edge): VertexRef {
    e.target
  }

  /**
    The accessors read back what the constructors stored: null endpoints for
    a label-only edge, the given vertices otherwise.
   */
  lemma AccessorsReadConstructedEndpoints(source: VertexRef, target: VertexRef, labelText: string)
    ensures GetSourceVertex(NewEdge(labelText)) == None && GetTargetVertex(NewEdge(labelText)) == None
    ensures GetSourceVertex(NewEdgeBetween(source, target, labelText)) == source
    ensures GetTargetVertex(NewEdgeBetween(source, target, labelText)) == target
  {
  }

  /** `setSourceVertex`: replaces the source and leaves everything else as it was. */
  function SetSourceVertex(e: Edge, v: VertexRef): (r: Edge)
    ensures GetSourceVertex(r) == v
    ensures GetTargetVertex(r) == GetTargetVertex(e)
    ensures r.labelText == e.labelText && r.className == e.className && r.associations == e.associations
  {
    e.(source := v)
  }

  /** `setTargetVertex`: replaces the target and leaves everything else as it was. */
  function SetTargetVertex(e: Edge, v: VertexRef): (r: Edge)
    ensures GetTargetVertex(r) == v
    ensures GetSourceVertex(r) == GetSourceVertex(e)
    ensures r.labelText == e.labelText && r.className == e.className && r.associations == e.associations
  {
    e.(target := v)
  }

  /** `setLabel` of the element base class. */
  function SetLabel(e: Edge, labelText: string): (r: Edge)
    ensures r.labelText == labelText
    ensures r.className == e.className && r.source == e.source && r.target == e.target
    ensures r.associations == e.associations
  {
    e.(labelText := labelText)
  }

  /** `getClone`: the copy constructor copies every field of the object. */
  function GetClone(e: Edge): (r: Edge)
    ensures r.className == e.className && r.labelText == e.labelText
    ensures r.source == e.source && r.target == e.target
    ensures r.associations == e.associations
  {
    e
  }

  /** `disassociateFromAll`: forgets every graph association of the object. */
  function DisassociateFromAll(e: Edge): (r: Edge)
    ensures r.associations == {}
    ensures r.className == e.className && r.labelText == e.labelText
    ensures r.source == e.source && r.target == e.target
  {
    e.(associations := {})
  }

  /** `r` is what `clone` makes of `e`: same class, label and endpoints, no graph association. */
  predicate IsCloneOf(r: Edge, e: Edge) {
    && r.className == e.className
    && r.labelText == e.labelText
    && r.source == e.source
    && r.target == e.target
    && r.associations == {}
  }

  /** `clone`: a field-wise copy that is then disassociated from every graph. */
  function Clone(e: Edge): (r: Edge)
    ensures IsCloneOf(r, e)
  {
    DisassociateFromAll(GetClone(e))
  }

  /** Cloning twice gives the same edge as cloning once. */
  lemma CloneIdempotent(e: Edge)
    ensures Clone(Clone(e)) == Clone(e)
  {
  }

  /** `getClassName` of the base class. */
  function GetClassName(e: Edge): string {
    e.className
  }

  /**
    A base-class edge reports `graph_analysis::Edge` from either constructor,
    and cloning or setting the label or an endpoint never changes the class name.
   */
  lemma ClassNameFixedAtCreation(e: Edge, source: VertexRef, target: VertexRef, labelText: string)
    ensures GetClassName(NewEdge(labelText)) == "graph_analysis::Edge"
    ensures GetClassName(NewEdgeBetween(source, target, labelText)) == "graph_analysis::Edge"
    ensures GetClassName(Clone(e)) == GetClassName(e)
    ensures GetClassName(SetLabel(e, labelText)) == GetClassName(e)
    ensures GetClassName(SetSourceVertex(e, source)) == GetClassName(e)
    ensures GetClassName(SetTargetVertex(e, target)) == GetClassName(e)
  {
  }

  /** `toString`: the label, or the class name when the label is empty. */
  function ToString(e: Edge): (r: string)
    ensures e.labelText != [] ==> r == e.labelText
    ensures e.labelText == [] ==> r == GetClassName(e)
  {
    if e.labelText == [] then GetClassName(e) else e.labelText
  }

  /** Every base-class edge has a non-empty string form, whatever its label. */
  lemma ToStringNonEmpty(e: Edge)
    requires e.className == EdgeClassName
    ensures |ToString(e)| > 0
  {
  }

  /** `v` is the same vertex reference as one of `e`'s endpoints. */
  predicate IsEndpoint(v: VertexRef, e: Edge) {
    v == e.source || v == e.target
  }

  /**
    `getInvolvedVertices(e0, e1)`: each endpoint of `e0` that is not an
    endpoint of `e1`, then `e1`'s source and target.
   */
  function InvolvedVertices(e0: Edge, e1: Edge): (vs: seq<VertexRef>)
    ensures 2 <= |vs| <= 4
    ensures vs[|vs| - 2] == e1.source && vs[|vs| - 1] == e1.target
    ensures e0.source in vs[..|vs| - 2] <==> !IsEndpoint(e0.source, e1)
    ensures e0.target in vs[..|vs| - 2] <==> !IsEndpoint(e0.target, e1)
    ensures forall i :: 0 <= i < |vs| - 2 ==> vs[i] == e0.source || vs[i] == e0.target
    ensures |vs| == 2 + (if IsEndpoint(e0.source, e1) then 0 else 1)
                      + (if IsEndpoint(e0.target, e1) then 0 else 1)
  {
    var fromSource := if IsEndpoint(e0.source, e1) then [] else [e0.source];
    var fromTarget := if IsEndpoint(e0.target, e1) then [] else [e0.target];
    fromSource + fromTarget + [e1.source, e1.target]
  }

  /** `areMeeting(e0, e1)`: fewer than four involved vertices. */
  function AreMeeting(e0: Edge, e1: Edge): bool {
    |InvolvedVertices(e0, e1)| < 4
  }

  /** The edges share an endpoint, compared by reference identity. */
  predicate ShareEndpoint(e0: Edge, e1: Edge) {
    IsEndpoint(e0.source, e1) || IsEndpoint(e0.target, e1)
  }

  /** `areMeeting` holds exactly when some endpoint of `e0` is an endpoint of `e1`. */
  lemma AreMeetingIffShareEndpoint(e0: Edge, e1: Edge)
    ensures AreMeeting(e0, e1) <==> ShareEndpoint(e0, e1)
  {
  }

  /** Although the involved-vertex list is built asymmetrically, `areMeeting` is symmetric. */
  lemma AreMeetingSymmetric(e0: Edge, e1: Edge)
    ensures AreMeeting(e0, e1) <==> AreMeeting(e1, e0)
  {
    AreMeetingIffShareEndpoint(e0, e1);
    AreMeetingIffShareEndpoint(e1, e0);
  }

  /** Every edge meets itself, a self-loop included. */
  lemma AreMeetingReflexive(e: Edge)
    ensures AreMeeting(e, e)
  {
    AreMeetingIffShareEndpoint(e, e);
  }

  /** Two edges on four pairwise distinct vertices do not meet. */
  lemma FourDistinctVerticesDoNotMeet(e0: Edge, e1: Edge)
    requires e0.source != e1.source && e0.source != e1.target
    requires e0.target != e1.source && e0.target != e1.target
    ensures !AreMeeting(e0, e1)
  {
  }
}

=== FILE: edge_type_manager.dfy ===
/**
  The edge type registry: a map from type names to prototype edges, the set
  of registered names and a default type. New edges are made by cloning a
  prototype and then setting the label (and the endpoints). The process-wide
  singleton is modelled as an explicit registry value.
 */
module EdgeTypeManager {
  import opened Wrappers
  import opened Edges

  /** `edge::Type`. */
  type EdgeType = string

  datatype RegistryError =
    | UnknownType(requested: EdgeType)
    | DuplicateType(registered: EdgeType)

  /**
    `mTypeMap` maps each registered type to its prototype, `mRegisteredTypes`
    lists the registered types and `mDefaultType` names the fallback type.
   */
  datatype Registry = Registry(
    typeMap: map<EdgeType, Edge>,
    registeredTypes: set<EdgeType>,
    defaultType: EdgeType)

  /** The registration map and the registration list describe the same types. */
  predicate Valid(reg: Registry) {
    reg.typeMap.Keys == reg.registeredTypes
  }

  /** A registry in which nothing is registered yet. */
  function Empty(defaultType: EdgeType): (reg: Registry)
    ensures Valid(reg)
    ensures reg.registeredTypes == {} && reg.defaultType == defaultType
  {
    Registry(map[], {}, defaultType)
  }

  /**
    `registerType(type, edge, throwOnAlreadyRegistered)`: stores `proto` under
    `type`; a type that is already registered is either refused with
    `DuplicateType` or silently left as it was.
   */
  function RegisterType(reg: Registry, t: EdgeType, proto: Edge, throwOnAlreadyRegistered: bool)
    : (res: Result<Registry, RegistryError>)
    ensures t in reg.registeredTypes && throwOnAlreadyRegistered ==> res == Failure(DuplicateType(t))
    ensures t in reg.registeredTypes && !throwOnAlreadyRegistered ==> res == Success(reg)
    ensures t !in reg.registeredTypes ==>
      && res.Success?
      && res.value.typeMap == reg.typeMap[t := proto]
      && res.value.registeredTypes == reg.registeredTypes + {t}
      && res.value.defaultType == reg.defaultType
  {
    if t in reg.registeredTypes then
      if throwOnAlreadyRegistered then Failure(DuplicateType(t)) else Success(reg)
    else
      Success(Registry(reg.typeMap[t := proto], reg.registeredTypes + {t}, reg.defaultType))
  }

  /** `registerType(edge, throwOnAlreadyRegistered)`: registers `proto` under its own class name. */
  function RegisterClass(reg: Registry, proto: Edge, throwOnAlreadyRegistered: bool)
    : (res: Result<Registry, RegistryError>)
    ensures proto.className in reg.registeredTypes && throwOnAlreadyRegistered ==>
      res == Failure(DuplicateType(proto.className))
    ensures proto.className in reg.registeredTypes && !throwOnAlreadyRegistered ==> res == Success(reg)
    ensures proto.className !in reg.registeredTypes ==>
      && res.Success?
      && res.value.typeMap == reg.typeMap[proto.className := proto]
      && res.value.registeredTypes == reg.registeredTypes + {proto.className}
      && res.value.defaultType == reg.defaultType
  {
    RegisterType(reg, GetClassName(proto), proto, throwOnAlreadyRegistered)
  }

  /** Registration keeps the map and the list in step. */
  lemma RegisterTypePreservesValid(reg: Registry, t: EdgeType, proto: Edge, throwOnAlreadyRegistered: bool)
    requires Valid(reg)
    ensures var res := RegisterType(reg, t, proto, throwOnAlreadyRegistered);
      res.Success? ==> Valid(res.value)
  {
  }

  /** After a successful registration the type is supported, and it maps to the given prototype if it was new. */
  lemma RegisteredTypeIsSupported(reg: Registry, t: EdgeType, proto: Edge, throwOnAlreadyRegistered: bool)
    requires Valid(reg)
    ensures var res := RegisterType(reg, t, proto, throwOnAlreadyRegistered);
      && (res.Success? ==> t in GetSupportedTypes(res.value))
      && (t !in GetSupportedTypes(reg) ==> res.Success? && res.value.typeMap[t] == proto)
      && (res.Success? ==> GetSupportedTypes(res.value) == GetSupportedTypes(reg) + {t})
  {
  }

  /** `setDefaultType`: selects the fallback type and changes nothing else. */
  function SetDefaultType(reg: Registry, t: EdgeType): (r: Registry)
    ensures GetDefaultType(r) == t
    ensures r.typeMap == reg.typeMap && r.registeredTypes == reg.registeredTypes
  {
    reg.(defaultType := t)
  }

  function GetDefaultType(reg: Registry): EdgeType {
    reg.defaultType
  }

  /** `getSupportedTypes`: the registered type names. */
  function GetSupportedTypes(reg: Registry): (types: set<EdgeType>)
    ensures Valid(reg) ==> types == reg.typeMap.Keys
  {
    reg.registeredTypes
  }

  /**
    `edgeByType(type, throwOnDefault)`: the prototype of `type`; for an
    unregistered type either `UnknownType` or the default type's prototype.
    A default type that is itself unregistered has no prototype and is
    reported as `UnknownType`.
   */
  function EdgeByType(reg: Registry, t: EdgeType, throwOnDefault: bool): (res: Result<Edge, RegistryError>)
    ensures t in reg.typeMap ==> res == Success(reg.typeMap[t])
    ensures t !in reg.typeMap && throwOnDefault ==> res == Failure(UnknownType(t))
    ensures t !in reg.typeMap && !throwOnDefault ==>
      if reg.defaultType in reg.typeMap then res == Success(reg.typeMap[reg.defaultType])
      else res.Failure?
  {
    if t in reg.typeMap then Success(reg.typeMap[t])
    else if throwOnDefault then Failure(UnknownType(t))
    else if reg.defaultType in reg.typeMap then Success(reg.typeMap[reg.defaultType])
    else Failure(UnknownType(reg.defaultType))
  }

  /** `createEdge(type, label, throwOnMissing)`: a clone of the prototype carrying `label`. */
  function CreateEdge(reg: Registry, t: EdgeType, labelText: string, throwOnMissing: bool)
    : (res: Result<Edge, RegistryError>)
    ensures res.Success? <==> EdgeByType(reg, t, throwOnMissing).Success?
    ensures res.Success? ==>
      var proto := EdgeByType(reg, t, throwOnMissing).value;
      && res.value.labelText == labelText
      && res.value.className == proto.className
      && res.value.source == proto.source && res.value.target == proto.target
      && res.value.associations == {}
  {
    var proto :- EdgeByType(reg, t, throwOnMissing);
    Success(SetLabel(Clone(proto), labelText))
  }

  /** `createEdge(type, source, target, label, throwOnMissing)`: as above, between the given vertices. */
  function CreateEdgeBetween(reg: Registry, t: EdgeType, source: VertexRef, target: VertexRef,
                             labelText: string, throwOnMissing: bool)
    : (res: Result<Edge, RegistryError>)
    ensures res.Success? <==> EdgeByType(reg, t, throwOnMissing).Success?
    ensures res.Success? ==>
      var proto := EdgeByType(reg, t, throwOnMissing).value;
      && res.value.labelText == labelText
      && res.value.className == proto.className
      && res.value.source == source && res.value.target == target
      && res.value.associations == {}
  {
    var e :- CreateEdge(reg, t, labelText, throwOnMissing);
    Success(SetTargetVertex(SetSourceVertex(e, source), target))
  }

  /** Asking for an unregistered type with `throwOnMissing` set fails with `UnknownType`. */
  lemma CreateUnknownTypeFails(reg: Registry, t: EdgeType, labelText: string)
    requires t !in GetSupportedTypes(reg) && Valid(reg)
    ensures CreateEdge(reg, t, labelText, true) == Failure(UnknownType(t))
  {
  }

  /** With `throwOnMissing` clear, an unregistered type yields a clone of the default type's prototype. */
  lemma CreateUnknownTypeFallsBack(reg: Registry, t: EdgeType, labelText: string)
    requires Valid(reg)
    requires t !in GetSupportedTypes(reg) && GetDefaultType(reg) in GetSupportedTypes(reg)
    ensures CreateEdge(reg, t, labelText, false).Success?
    ensures IsCloneOf(SetLabel(CreateEdge(reg, t, labelText, false).value, reg.typeMap[reg.defaultType].labelText),
                      reg.typeMap[reg.defaultType])
  {
  }

  /**
    Registry round trip: right after registering a fresh type, creating an
    edge of that type gives a clone of the registered prototype with the
    requested label, whatever the throw flags.
   */
  lemma CreateAfterRegister(reg: Registry, t: EdgeType, proto: Edge, labelText: string,
                            throwOnAlreadyRegistered: bool, throwOnMissing: bool)
    requires Valid(reg) && t !in GetSupportedTypes(reg)
    ensures var res := RegisterType(reg, t, proto, throwOnAlreadyRegistered);
      && res.Success?
      && CreateEdge(res.value, t, labelText, throwOnMissing) == Success(SetLabel(Clone(proto), labelText))
      && GetClassName(CreateEdge(res.value, t, labelText, throwOnMissing).value) == proto.className
  {
  }

  /**
    Registering a prototype under its own class name and then asking for that
    name gives an edge of the prototype's class.
   */
  lemma CreateAfterRegisterClass(reg: Registry, proto: Edge, labelText: string, throwOnMissing: bool)
    requires Valid(reg) && proto.className !in GetSupportedTypes(reg)
    ensures var res := RegisterClass(reg, proto, false);
      && res.Success?
      && proto.className in GetSupportedTypes(res.value)
      && CreateEdge(res.value, proto.className, labelText, throwOnMissing).Success?
      && GetClassName(CreateEdge(res.value, proto.className, labelText, throwOnMissing).value) == proto.className
  {
    CreateAfterRegister(reg, proto.className, proto, labelText, false, throwOnMissing);
  }

  /** Registering a type a second time with `throwOnAlreadyRegistered` set is refused. */
  lemma ReRegisterFails(reg: Registry, t: EdgeType, proto: Edge, other: Edge)
    requires Valid(reg) && t !in GetSupportedTypes(reg)
    ensures var res := RegisterType(reg, t, proto, false);
      && res.Success?
      && RegisterType(res.value, t, other, true) == Failure(DuplicateType(t))
  {
  }

  /** A created edge differs from the stored prototype's clone in nothing but its label. */
  lemma CreatedEdgeIsLabelledClone(reg: Registry, t: EdgeType, labelText: string, throwOnMissing: bool)
    requires t in reg.typeMap
    ensures var res := CreateEdge(reg, t, labelText, throwOnMissing);
      && res.Success?
      && res.value.labelText == labelText
      && IsCloneOf(SetLabel(res.value, reg.typeMap[t].labelText), reg.typeMap[t])
  {
  }

  /** Registering a type, refused or not, never changes the default type. */
  lemma DefaultTypeSurvivesRegistration(reg: Registry, t: EdgeType, proto: Edge, throwOnAlreadyRegistered: bool)
    ensures var res := RegisterType(reg, t, proto, throwOnAlreadyRegistered);
      res.Success? ==> GetDefaultType(res.value) == GetDefaultType(reg)
  {
  }
}

=== FILE: filter.dfy ===
/**
  Edge-context filters: a filter permits the target (or source) of an edge
  when its own predicate holds, or when any child that is itself an
  edge-context filter permits it. Children of any other filter kind are
  passed over.
 */
module Filters {
  import opened Wrappers
  import opened Edges

  /** The two filter kinds named in the `filters::Type` enumeration. */
  datatype FilterType = CONTENT | CLASS

  /** `filters::TypeTxt`. */
  function TypeTxt(t: FilterType): string {
    match t
    case CONTENT => "CONTENT"
    case CLASS => "CLASS"
  }

  /** `filters::TxtType`; a name outside the table has no entry. */
  function TxtType(s: string): Option<FilterType> {
    if s == "CONTENT" then Some(CONTENT)
    else if s == "CLASS" then Some(CLASS)
    else None
  }

  /** The two tables are mutually inverse: every type round-trips through its name ... */
  lemma TxtTypeOfTypeTxt(t: FilterType)
    ensures TxtType(TypeTxt(t)) == Some(t)
  {
  }

  /** ... and every name that `TxtType` knows is the name of the type it maps to. */
  lemma TypeTxtOfTxtType(s: string, t: FilterType)
    requires TxtType(s) == Some(t)
    ensures TypeTxt(t) == s
  {
  }

  /** Which endpoint of an edge a filter is asked about. */
  datatype Side = SourceSide | TargetSide

  /**
    A filter chain. An `EdgeContextFilter` carries its own `evaluateTarget` and
    `evaluateSource` predicates and its list of child filters; every other kind
    of filter is an `OtherFilter`.
   */
  datatype Filter =
    | EdgeContextFilter(evaluateTarget: Edge -> bool, evaluateSource: Edge -> bool, children: seq<Filter>)
    | OtherFilter

  /** The filter's own predicate for the given side: `evaluateTarget` or `evaluateSource`. */
  function OwnPredicate(f: Filter, side: Side): Edge -> bool
    requires f.EdgeContextFilter?
  {
    match side
    case TargetSide => f.evaluateTarget
    case SourceSide => f.evaluateSource
  }

  function Evaluate(f: Filter, side: Side, e: Edge): bool
    requires f.EdgeContextFilter?
  {
    OwnPredicate(f, side)(e)
  }

  /**
    `permitTarget` / `permitSource`: the own predicate, or else the first child,
    in list order, that is an edge-context filter and permits.
   */
  function Permit(f: Filter, side: Side, e: Edge): (r: bool)
    requires f.EdgeContextFilter?
    ensures Evaluate(f, side, e) ==> r
    ensures r <==> Evaluate(f, side, e) || exists i :: 0 <= i < |f.children| && ChildPermits(f.children[i], side, e)
    decreases f, 1, 0
  {
    Evaluate(f, side, e) || ChildrenPermitFrom(f, side, e, 0)
  }

  /** A child counts only if it is an edge-context filter that permits. */
  predicate ChildPermits(c: Filter, side: Side, e: Edge)
    decreases c, 2, 0
  {
    c.EdgeContextFilter? && Permit(c, side, e)
  }

  /** The loop over the children of `f` from position `i` on. */
  function ChildrenPermitFrom(f: Filter, side: Side, e: Edge, i: nat): (r: bool)
    requires f.EdgeContextFilter?
    requires i <= |f.children|
    ensures r <==> exists j :: i <= j < |f.children| && ChildPermits(f.children[j], side, e)
    decreases f, 0, |f.children| - i
  {
    if i == |f.children| then false
    else if f.children[i].EdgeContextFilter? && Permit(f.children[i], side, e) then true
    else ChildrenPermitFrom(f, side, e, i + 1)
  }

  /** `permitTarget`: `evaluateTarget`, or else some edge-context child that permits the target. */
  function PermitTarget(f: Filter, e: Edge): (r: bool)
    requires f.EdgeContextFilter?
    ensures f.evaluateTarget(e) ==> r
    ensures r <==> f.evaluateTarget(e)
                   || exists i :: 0 <= i < |f.children| && ChildPermits(f.children[i], TargetSide, e)
  {
    Permit(f, TargetSide, e)
  }

  /** `permitSource`: `evaluateSource`, or else some edge-context child that permits the source. */
  function PermitSource(f: Filter, e: Edge): (r: bool)
    requires f.EdgeContextFilter?
    ensures f.evaluateSource(e) ==> r
    ensures r <==> f.evaluateSource(e)
                   || exists i :: 0 <= i < |f.children| && ChildPermits(f.children[i], SourceSide, e)
  {
    Permit(f, SourceSide, e)
  }

  /** A filter whose own predicate fails and which has no children denies. */
  lemma ChildlessFilterFollowsOwnPredicate(f: Filter, side: Side, e: Edge)
    requires f.EdgeContextFilter? && f.children == []
    ensures Permit(f, side, e) == Evaluate(f, side, e)
  {
  }

  /** Children that are not edge-context filters never affect the result, wherever they stand. */
  lemma OtherChildrenIgnored(f: Filter, side: Side, e: Edge, k: nat)
    requires f.EdgeContextFilter?
    requires k <= |f.children|
    ensures Permit(f.(children := f.children[..k] + [OtherFilter] + f.children[k..]), side, e)
            == Permit(f, side, e)
  {
    var g := f.(children := f.children[..k] + [OtherFilter] + f.children[k..]);
    if Permit(f, side, e) && !Evaluate(f, side, e) {
      var i :| 0 <= i < |f.children| && ChildPermits(f.children[i], side, e);
      var j := if i < k then i else i + 1;
      assert g.children[j] == f.children[i];
    }
    if Permit(g, side, e) && !Evaluate(g, side, e) {
      var j :| 0 <= j < |g.children| && ChildPermits(g.children[j], side, e);
      assert j != k;
      var i := if j < k then j else j - 1;
      assert f.children[i] == g.children[j];
    }
  }

  /**
    An independent reading of the chain: the list of the own predicates of
    every edge-context filter reachable from `f` through edge-context filters,
    `f`'s own first, then each child's layers in list order.
   */
  function Layers(f: Filter, side: Side): seq<Edge -> bool>
    requires f.EdgeContextFilter?
    decreases f, 1, 0
  {
    [OwnPredicate(f, side)] + ChildLayersFrom(f, side, 0)
  }

  function ChildLayersFrom(f: Filter, side: Side, i: nat): seq<Edge -> bool>
    requires f.EdgeContextFilter?
    requires i <= |f.children|
    decreases f, 0, |f.children| - i
  {
    if i == |f.children| then []
    else (if f.children[i].EdgeContextFilter? then Layers(f.children[i], side) else [])
         + ChildLayersFrom(f, side, i + 1)
  }

  /** Some layer of the chain affirmatively permits `e`. */
  predicate SomeLayerPermits(layers: seq<Edge -> bool>, e: Edge) {
    exists k :: 0 <= k < |layers| && layers[k](e)
  }

  /**
    The recursive OR: a chain permits exactly when at least one of its layers
    permits, so the absence of an explicit permit is a deny.
   */
  lemma {:induction false} PermitIffSomeLayer(f: Filter, side: Side, e: Edge)
    requires f.EdgeContextFilter?
    ensures Permit(f, side, e) <==> SomeLayerPermits(Layers(f, side), e)
    decreases f, 1, 0
  {
    var own := OwnPredicate(f, side);
    var rest := ChildLayersFrom(f, side, 0);
    assert Layers(f, side) == [own] + rest;
    ChildLayersIffSomeLayer(f, side, e, 0);
    SomeLayerOfConcat([own], rest, e);
    if own(e) {
      assert [own][0](e);
    }
  }

  lemma {:induction false} ChildLayersIffSomeLayer(f: Filter, side: Side, e: Edge, i: nat)
    requires f.EdgeContextFilter?
    requires i <= |f.children|
    ensures ChildrenPermitFrom(f, side, e, i) <==> SomeLayerPermits(ChildLayersFrom(f, side, i), e)
    decreases f, 0, |f.children| - i
  {
    if i < |f.children| {
      var c := f.children[i];
      var head := if c.EdgeContextFilter? then Layers(c, side) else [];
      ChildLayersIffSomeLayer(f, side, e, i + 1);
      SomeLayerOfConcat(head, ChildLayersFrom(f, side, i + 1), e);
      if c.EdgeContextFilter? {
        PermitIffSomeLayer(c, side, e);
      }
    }
  }

  lemma SomeLayerOfConcat(a: seq<Edge -> bool>, b: seq<Edge -> bool>, e: Edge)
    ensures SomeLayerPermits(a + b, e) <==> SomeLayerPermits(a, e) || SomeLayerPermits(b, e)
  {
    if SomeLayerPermits(a + b, e) {
      var k :| 0 <= k < |a + b| && (a + b)[k](e);
      if k < |a| {
        assert a[k](e);
      } else {
        assert b[k - |a|](e);
      }
    }
    if SomeLayerPermits(a, e) {
      var k :| 0 <= k < |a| && a[k](e);
      assert (a + b)[k](e);
    }
    if SomeLayerPermits(b, e) {
      var k :| 0 <= k < |b| && b[k](e);
      assert (a + b)[|a| + k](e);
    }
  }
}

=== FILE: lp_solver.dfy ===
/**
  The solver-independent parts of the linear-programming solver interface:
  the names of the solver types, the choice of a solver implementation, and
  the naming of LP columns as `x<index>`.
 */
module LPSolver {
  import opened Wrappers
  import opened Decimal

  const MaxU32: nat := 0xFFFF_FFFF

  /** `uint32_t`. */
  type U32 = x: nat | x <= MaxU32

  /** `LPSolver::Type`. */
  datatype SolverType = UNKNOWN_LP_SOLVER | GLPK_SOLVER | SCIP_SOLVER | LP_SOLVER_TYPE_END

  /** `LPSolver::TypeTxt`. */
  function TypeTxt(t: SolverType): string {
    match t
    case UNKNOWN_LP_SOLVER => "UNKNOWN_LP_SOLVER"
    case GLPK_SOLVER => "GLPK_SOLVER"
    case SCIP_SOLVER => "SCIP_SOLVER"
    case LP_SOLVER_TYPE_END => "LP_SOLVER_TYPE_END"
  }

  /** Every solver type has its own name. */
  lemma TypeTxtInjective(a: SolverType, b: SolverType)
    ensures TypeTxt(a) == TypeTxt(b) <==> a == b
  {
  }

  /** The concrete solver implementations `getInstance` can construct. */
  datatype SolverKind = GlpkSolver | ScipSolver

  datatype SolverError = InvalidArgument(message: string)

  const UnknownSolverMessage: string :=
    "graph_analysis::algorithms::LPSolver::getInstance: unknown solver type provided"

  /**
    `getInstance(solverType)`: a GLPK solver, a SCIP solver when the build
    includes SCIP support (`withScip`), and `invalid_argument` for any other type.
   */
  function GetInstance(solverType: SolverType, withScip: bool): (res: Result<SolverKind, SolverError>)
    ensures res.Success? <==> solverType == GLPK_SOLVER || (solverType == SCIP_SOLVER && withScip)
    ensures res.Success? ==> (res.value == GlpkSolver <==> solverType == GLPK_SOLVER)
    ensures res.Failure? ==> res.error == InvalidArgument(UnknownSolverMessage)
  {
    match solverType
    case GLPK_SOLVER => Success(GlpkSolver)
    case SCIP_SOLVER => if withScip then Success(ScipSolver) else Failure(InvalidArgument(UnknownSolverMessage))
    case _ => Failure(InvalidArgument(UnknownSolverMessage))
  }

  /** The two sentinel enumerators are always refused. */
  lemma GetInstanceRejectsSentinels(withScip: bool)
    ensures GetInstance(UNKNOWN_LP_SOLVER, withScip).Failure?
    ensures GetInstance(LP_SOLVER_TYPE_END, withScip).Failure?
  {
  }

  /** `getVariableNameByColumnIdx(idx)`: `x` followed by the decimal digits of `idx`. */
  function VariableNameByColumnIdx(idx: U32): (name: string)
    ensures 2 <= |name| && name[0] == 'x'
    ensures AllDigits(name[1..])
    ensures 2 < |name| ==> name[1] != '0'
  {
    "x" + NatToString(idx)
  }

  /** The characters the `>>` extractor skips before a number. */
  predicate IsSpace(ch: char) {
    ch == ' ' || ch == '\t' || ch == '\n' || ch == '\r' || ch == '\U{000C}' || ch == '\U{000B}'
  }

  /** The input with its leading white space removed. */
  function SkipSpace(s: string): (t: string)
    ensures |t| <= |s| && t == s[|s| - |t|..]
    ensures t != [] ==> !IsSpace(t[0])
  {
    if s != [] && IsSpace(s[0]) then SkipSpace(s[1..]) else s
  }

  /**
    `ss >> index` for a `uint32_t`, under the C++11 rules. Leading white space
    is skipped. When nothing is left, the stream fails before any number is
    read and the target is not written (`None`). Otherwise the longest run of
    digits is read: without digits the extraction stores 0, and a value above
    the type's range stores the largest `uint32_t`.
   */
  function ExtractU32(s: string): (v: Option<U32>)
    ensures v.None? <==> SkipSpace(s) == []
    ensures var t := SkipSpace(s); var k := DigitPrefixLength(t);
      && (t != [] && k == 0 ==> v == Some(0))
      && (0 < k && DigitsValue(t[..k]) <= MaxU32 ==> v == Some(DigitsValue(t[..k])))
      && (MaxU32 < DigitsValue(t[..k]) ==> v == Some(MaxU32))
  {
    var t := SkipSpace(s);
    var k := DigitPrefixLength(t);
    if t == [] then None
    else if k == 0 then Some(0)
    else if DigitsValue(t[..k]) > MaxU32 then Some(MaxU32)
    else Some(DigitsValue(t[..k]))
  }

  /**
    `OutOfRange`: `substr(1)` of an empty name throws. `Uninitialized`: the
    extraction wrote nothing, so the function returns the value `index`
    happened to hold.
   */
  datatype NameError = OutOfRange | Uninitialized

  /**
    `getColumnIdxByVariableName(varName)` as written: the number read from
    everything after the first character. An empty name makes `substr(1)`
    throw `out_of_range`; a name with nothing but white space after its first
    character leaves the uninitialised `index` unwritten.
   */
  function ColumnIdxByVariableName(varName: string): (res: Result<U32, NameError>)
    ensures res == Failure(OutOfRange) <==> varName == []
    ensures res == Failure(Uninitialized) <==> varName != [] && SkipSpace(varName[1..]) == []
    ensures 1 < |varName| && AllDigits(varName[1..]) && DigitsValue(varName[1..]) <= MaxU32 ==>
      res == Success(DigitsValue(varName[1..]))
    ensures |varName| == 1 ==> res == Failure(Uninitialized)
    ensures varName != [] && ExtractU32(varName[1..]).Some? ==> res == Success(ExtractU32(varName[1..]).value)
  {
    if varName == [] then Failure(OutOfRange)
    else
      var rest := varName[1..];
      ExtractDigits(rest);
      match ExtractU32(rest)
      case None => Failure(Uninitialized)
      case Some(v) => Success(v)
  }

  /** A string made only of digits is read whole. */
  lemma ExtractDigits(s: string)
    ensures 0 < |s| && AllDigits(s) && DigitsValue(s) <= MaxU32 ==> ExtractU32(s) == Some(DigitsValue(s))
  {
    if 0 < |s| && AllDigits(s) {
      assert !IsSpace(s[0]);
      DigitPrefixOfDigits(s);
      assert s[..|s|] == s;
    }
  }

  /** The names `x` and `x  ` carry no number, so the returned index is never written. */
  lemma NameWithoutNumberLeavesIndexUnset()
    ensures ColumnIdxByVariableName("x") == Failure(Uninitialized)
    ensures ColumnIdxByVariableName("x  ") == Failure(Uninitialized)
  {
    assert "x  "[1..] == "  ";
    assert SkipSpace("  ") == SkipSpace(" ") == SkipSpace("");
  }

  /**
    The evidently intended reading: `index` starts at 0, so a name without a
    number reads as column 0. It fails only on the empty name and agrees with
    the code as written wherever that returns a value.
   */
  function ColumnIdxZeroInitialized(varName: string): (res: Result<U32, NameError>)
    ensures res.Failure? <==> varName == []
    ensures res.Failure? ==> res.error == OutOfRange
    ensures ColumnIdxByVariableName(varName).Success? ==> res == ColumnIdxByVariableName(varName)
    ensures ColumnIdxByVariableName(varName) == Failure(Uninitialized) ==> res == Success(0)
  {
    if varName == [] then Failure(OutOfRange)
    else
      match ExtractU32(varName[1..])
      case None => Success(0)
      case Some(v) => Success(v)
  }

  /** Every column index survives the trip through its variable name. */
  lemma {:induction false} ColumnIdxOfVariableName(idx: U32)
    ensures ColumnIdxByVariableName(VariableNameByColumnIdx(idx)) == Success(idx)
    ensures ColumnIdxZeroInitialized(VariableNameByColumnIdx(idx)) == Success(idx)
  {
    var name := VariableNameByColumnIdx(idx);
    assert name[1..] == NatToString(idx);
    DigitsValueOfNatToString(idx);
  }

  /** Distinct columns get distinct variable names. */
  lemma VariableNameInjective(i: U32, j: U32)
    requires VariableNameByColumnIdx(i) == VariableNameByColumnIdx(j)
    ensures i == j
  {
    ColumnIdxOfVariableName(i);
    ColumnIdxOfVariableName(j);
  }
}

=== FILE: multi_commodity_vertex.dfy ===
/**
  The textual form of a multi-commodity vertex: its label and class name,
  then the per-commodity supply/demand values and, on a second line, the
  per-commodity minimum transit flows, each list bracketed and
  comma-separated.
 */
module MultiCommodityVertex {
  import opened Wrappers
  import opened Decimal

  /** `int32_t`. */
  type I32 = x: int | -0x8000_0000 <= x < 0x8000_0000

  /** `uint32_t`. */
  type U32 = x: nat | x <= 0xFFFF_FFFF

  const SupplyLead: string := " supply/demand: ["
  const FlowLead: string := "         min-trans-flow: ["

  /** The values in order, each rendered by `IntToString`, separated by single commas. */
  function JoinInts(xs: seq<int>): string {
    if |xs| == 0 then ""
    else if |xs| == 1 then IntToString(xs[0])
    else IntToString(xs[0]) + "," + JoinInts(xs[1..])
  }

  /**
    One list section as the source's loop writes it: each value, then a comma
    unless the value was the last one.
   */
  method RenderList(xs: seq<int>) returns (s: string)
    ensures s == JoinInts(xs)
  {
    s := "";
    var i := 0;
    while i < |xs|
      invariant 0 <= i <= |xs|
      invariant s + JoinInts(xs[i..]) == JoinInts(xs)
    {
      var x := IntToString(xs[i]);
      JoinIntsFrom(xs, i);
      if i + 1 == |xs| {
        assert JoinInts(xs[i + 1..]) == "";
        s := s + x;
      } else {
        AppendRegroup(s, x + ",", JoinInts(xs[i + 1..]));
        s := s + (x + ",");
      }
      i := i + 1;
    }
    assert JoinInts(xs[i..]) == "";
  }

  lemma AppendRegroup(s: string, t: string, u: string)
    ensures s + (t + u) == (s + t) + u
  {
  }

  /** How the section from position `i` on begins. */
  lemma JoinIntsFrom(xs: seq<int>, i: nat)
    requires i < |xs|
    ensures i + 1 == |xs| ==> JoinInts(xs[i..]) == IntToString(xs[i])
    ensures i + 1 < |xs| ==> JoinInts(xs[i..]) == IntToString(xs[i]) + "," + JoinInts(xs[i + 1..])
  {
    assert xs[i..][0] == xs[i];
    assert xs[i..][1..] == xs[i + 1..];
  }

  /** A character absent from a string is absent from its tail. */
  lemma NotInTail(s: string, ch: char)
    requires s != [] && ch !in s
    ensures ch !in s[1..]
  {
    forall i | 0 <= i < |s[1..]| ensures s[1..][i] != ch {
      assert s[1..][i] == s[i + 1];
    }
  }

  /** The number of commas in a string. */
  function CommaCount(s: string): nat {
    if s == [] then 0 else (if s[0] == ',' then 1 else 0) + CommaCount(s[1..])
  }

  lemma {:induction false} CommaCountConcat(a: string, b: string)
    ensures CommaCount(a + b) == CommaCount(a) + CommaCount(b)
  {
    if a != [] {
      assert a + b != [];
      assert (a + b)[0] == a[0];
      assert (a + b)[1..] == a[1..] + b;
      CommaCountConcat(a[1..], b);
    } else {
      assert a + b == b;
    }
  }

  lemma {:induction false} CommaFreeCount(s: string)
    requires ',' !in s
    ensures CommaCount(s) == 0
  {
    if s != [] {
      NotInTail(s, ',');
      CommaFreeCount(s[1..]);
    }
  }

  /** A section of `n` values holds exactly `max(n - 1, 0)` commas: no trailing comma. */
  lemma {:induction false} JoinIntsCommaCount(xs: seq<int>)
    ensures CommaCount(JoinInts(xs)) == if |xs| == 0 then 0 else |xs| - 1
  {
    if xs != [] {
      IntToStringAlphabet(xs[0], ',');
      CommaFreeCount(IntToString(xs[0]));
    }
    if |xs| > 1 {
      JoinIntsCommaCount(xs[1..]);
      CommaCountConcat(IntToString(xs[0]), ",");
      CommaCountConcat(IntToString(xs[0]) + ",", JoinInts(xs[1..]));
    }
  }

  /** A character that is neither a digit, a minus sign nor a comma never occurs in a section. */
  lemma {:induction false} JoinIntsAlphabet(xs: seq<int>, ch: char)
    requires !IsDigit(ch) && ch != '-' && ch != ','
    ensures ch !in JoinInts(xs)
  {
    if xs != [] {
      IntToStringAlphabet(xs[0], ch);
    }
    if |xs| > 1 {
      JoinIntsAlphabet(xs[1..], ch);
    }
  }

  /** The position of the first `ch` in `s`, or `|s|` when there is none. */
  function FirstIndexOf(s: string, ch: char): (k: nat)
    ensures k <= |s|
    ensures ch !in s[..k]
    ensures k < |s| ==> s[k] == ch
  {
    if s == [] || s[0] == ch then 0
    else
      var k := 1 + FirstIndexOf(s[1..], ch);
      assert s[..k] == [s[0]] + s[1..][..k - 1];
      k
  }

  lemma {:induction false} FirstIndexAfterFree(a: string, ch: char, rest: string)
    requires ch !in a
    ensures FirstIndexOf(a + [ch] + rest, ch) == |a|
  {
    if a != [] {
      assert (a + [ch] + rest)[0] == a[0];
      assert (a + [ch] + rest)[1..] == a[1..] + [ch] + rest;
      NotInTail(a, ch);
      FirstIndexAfterFree(a[1..], ch, rest);
    }
  }

  /** The pieces of `s` between commas. */
  function SplitOnComma(s: string): seq<string>
    decreases |s|
  {
    var k := FirstIndexOf(s, ',');
    if k == |s| then [s] else [s[..k]] + SplitOnComma(s[k + 1..])
  }

  /** Each value rendered on its own. */
  function RenderEach(xs: seq<int>): (pieces: seq<string>)
    ensures |pieces| == |xs|
  {
    if xs == [] then [] else [IntToString(xs[0])] + RenderEach(xs[1..])
  }

  /** Parses every piece as an integer; fails if any piece is not one. */
  function ParseAll(pieces: seq<string>): Option<seq<int>> {
    if pieces == [] then Some([])
    else match (ParseInt(pieces[0]), ParseAll(pieces[1..]))
      case (Some(x), Some(rest)) => Some([x] + rest)
      case _ => None
  }

  /** Reading a section back: the empty section is the empty list, otherwise every piece must be a number. */
  function DecodeList(s: string): Option<seq<int>> {
    if s == [] then Some([]) else ParseAll(SplitOnComma(s))
  }

  /** Splitting a section at its commas gives back the rendered values, in order. */
  lemma {:induction false} SplitJoinInts(xs: seq<int>)
    requires xs != []
    ensures SplitOnComma(JoinInts(xs)) == RenderEach(xs)
  {
    var a := IntToString(xs[0]);
    IntToStringAlphabet(xs[0], ',');
    if |xs| == 1 {
      assert FirstIndexOf(a, ',') == |a|;
      assert xs[1..] == [];
    } else {
      var rest := JoinInts(xs[1..]);
      var s := a + "," + rest;
      FirstIndexAfterFree(a, ',', rest);
      assert s[..|a|] == a;
      assert s[|a| + 1..] == rest;
      SplitJoinInts(xs[1..]);
    }
  }

  lemma {:induction false} ParseAllRenderEach(xs: seq<int>)
    ensures ParseAll(RenderEach(xs)) == Some(xs)
  {
    if xs != [] {
      ParseIntOfIntToString(xs[0]);
      ParseAllRenderEach(xs[1..]);
      assert RenderEach(xs)[1..] == RenderEach(xs[1..]);
      assert [xs[0]] + xs[1..] == xs;
    }
  }

  /** Decoding a rendered section gives back exactly the list of values. */
  lemma {:induction false} DecodeJoinInts(xs: seq<int>)
    ensures DecodeList(JoinInts(xs)) == Some(xs)
  {
    if xs != [] {
      SplitJoinInts(xs);
      ParseAllRenderEach(xs);
    }
  }

  /** The text that precedes the supply list: label, class name in brackets, and the supply heading. */
  function Header(labelText: string, className: string): (h: string)
    ensures |h| > 0 && h[|h| - 1] == '['
  {
    labelText + "(" + className + ")" + SupplyLead
  }

  /** What separates the two sections: the end of the first line and the flow heading. */
  const Separator: string := "\n" + FlowLead

  /** Everything after the header: the supply section, `]`, the separator, the flow section and `]`. */
  function Body(supply: seq<int>, minTransFlow: seq<int>): string {
    JoinInts(supply) + "]" + (Separator + (JoinInts(minTransFlow) + "]"))
  }

  /**
    `MultiCommodityVertex::toString`: the header, the supply values, `]`, a
    newline, the flow heading, the minimum transit flows and a closing `]`.
   */
  function ToString(labelText: string, className: string, supply: seq<I32>, minTransFlow: seq<U32>): (r: string)
    ensures Header(labelText, className) <= r
    ensures r[|r| - 1] == ']'
    ensures supply == [] ==>
      r[|Header(labelText, className)| - 1..|Header(labelText, className)| + 1] == "[]"
  {
    Header(labelText, className) + Body(supply, minTransFlow)
  }

  /** Reads a body back: the supply section runs up to the first `]`, the flow section up to the final `]`. */
  function DecodeBody(body: string): Option<(seq<int>, seq<int>)> {
    var k := FirstIndexOf(body, ']');
    if k == |body| then None
    else
      var tail := body[k + 1..];
      if |tail| < |Separator| + 1 || tail[..|Separator|] != Separator || tail[|tail| - 1] != ']' then None
      else
        match (DecodeList(body[..k]), DecodeList(tail[|Separator|..|tail| - 1]))
        case (Some(xs), Some(ys)) => Some((xs, ys))
        case _ => None
  }

  /** Reads the text of a vertex with the given label and class name back into its two lists. */
  function DecodeText(r: string, labelText: string, className: string): Option<(seq<int>, seq<int>)> {
    var h := Header(labelText, className);
    if h <= r then DecodeBody(r[|h|..]) else None
  }

  /** A body whose supply section has no `]` splits back into its two sections. */
  lemma DecodeBodySplit(a: string, b: string)
    requires ']' !in a
    ensures DecodeBody(a + "]" + (Separator + (b + "]"))) ==
      match (DecodeList(a), DecodeList(b))
      case (Some(xs), Some(ys)) => Some((xs, ys))
      case _ => None
  {
    var t := Separator + (b + "]");
    var body := a + "]" + t;
    FirstIndexAfterFree(a, ']', t);
    assert body[..|a|] == a;
    assert body[|a| + 1..] == t;
    assert t[..|Separator|] == Separator;
    assert t[|Separator|..|t| - 1] == b;
  }

  lemma DecodeBodyOfBody(supply: seq<int>, minTransFlow: seq<int>)
    ensures DecodeBody(Body(supply, minTransFlow)) == Some((supply, minTransFlow))
  {
    JoinIntsAlphabet(supply, ']');
    DecodeBodySplit(JoinInts(supply), JoinInts(minTransFlow));
    DecodeJoinInts(supply);
    DecodeJoinInts(minTransFlow);
  }

  /** The text of a vertex decodes back to exactly its supply list and its flow list. */
  lemma ToStringDecodes(labelText: string, className: string, supply: seq<I32>, minTransFlow: seq<U32>)
    ensures DecodeText(ToString(labelText, className, supply, minTransFlow), labelText, className)
            == Some((supply, minTransFlow))
  {
    var h := Header(labelText, className);
    var body := Body(supply, minTransFlow);
    assert (h + body)[|h|..] == body;
    DecodeBodyOfBody(supply, minTransFlow);
  }

  /**
    In `r`, the supply section `r[p..p + len]` holds `n` commas, and the flow
    section, from after the `]` and the separator `sep` that follow it up to
    the final character, holds `m` commas.
   */
  predicate SectionCommas(r: string, sep: string, p: nat, len: nat, n: nat, m: nat) {
    && p + len + 1 + |sep| <= |r| - 1
    && CommaCount(r[p..p + len]) == n
    && CommaCount(r[p + len + 1 + |sep|..|r| - 1]) == m
  }

  /**
    Each list section of the text holds `max(n - 1, 0)` commas for `n` values:
    the supply section runs from the end of the header to the `]` of the line
    break, the flow section from after the flow heading to the final `]`.
   */
  lemma ToStringSectionCommas(labelText: string, className: string, supply: seq<I32>, minTransFlow: seq<U32>)
    ensures SectionCommas(ToString(labelText, className, supply, minTransFlow), Separator,
                          |Header(labelText, className)|, |JoinInts(supply)|,
                          if |supply| == 0 then 0 else |supply| - 1,
                          if |minTransFlow| == 0 then 0 else |minTransFlow| - 1)
  {
    BodyCounts(Header(labelText, className), supply, minTransFlow);
  }

  lemma BodyCounts(h: string, supply: seq<int>, minTransFlow: seq<int>)
    ensures SectionCommas(h + Body(supply, minTransFlow), Separator, |h|, |JoinInts(supply)|,
                          if |supply| == 0 then 0 else |supply| - 1,
                          if |minTransFlow| == 0 then 0 else |minTransFlow| - 1)
  {
    JoinIntsCommaCount(supply);
    JoinIntsCommaCount(minTransFlow);
    SectionsCounted(h, JoinInts(supply), Separator, JoinInts(minTransFlow));
  }

  /** Both sections of `h`, `a`, `]`, separator, `b`, `]` keep their own comma counts. */
  lemma SectionsCounted(h: string, a: string, sep: string, b: string)
    ensures SectionCommas(h + (a + "]" + (sep + (b + "]"))), sep, |h|, |a|, CommaCount(a), CommaCount(b))
  {
    SectionSlices(h, a, sep, b);
  }

  /** In `h`, section `a`, `]`, separator, section `b`, `]`, each section sits at its own offsets. */
  lemma SectionSlices(h: string, a: string, sep: string, b: string)
    ensures var r := h + (a + "]" + (sep + (b + "]")));
      && |h| + |a| + 1 + |sep| <= |r| - 1
      && r[|h|..|h| + |a|] == a
      && r[|h| + |a| + 1 + |sep|..|r| - 1] == b
  {
    var r := h + (a + "]" + (sep + (b + "]")));
    assert r == (h + a) + ("]" + sep) + b + "]";
  }

  /** At position `p` of `r` stands the `]` that closes the supply section, followed by the separator. */
  predicate SectionBreakAt(r: string, p: nat) {
    && p + 1 + |Separator| <= |r|
    && r[p] == ']'
    && r[p + 1..p + 1 + |Separator|] == Separator
  }

  /** The supply section is closed by `]` and followed by a newline and the flow heading. */
  lemma ToStringLineBreak(labelText: string, className: string, supply: seq<I32>, minTransFlow: seq<U32>)
    ensures SectionBreakAt(ToString(labelText, className, supply, minTransFlow),
                           |Header(labelText, className)| + |JoinInts(supply)|)
  {
    BodyBreak(Header(labelText, className), supply, minTransFlow);
  }

  lemma BodyBreak(h: string, supply: seq<int>, minTransFlow: seq<int>)
    ensures SectionBreakAt(h + Body(supply, minTransFlow), |h| + |JoinInts(supply)|)
  {
    ClosedSection(h, JoinInts(supply), JoinInts(minTransFlow) + "]");
  }

  lemma ClosedSection(h: string, a: string, rest: string)
    ensures SectionBreakAt(h + (a + "]" + (Separator + rest)), |h| + |a|)
  {
    var r := h + (a + "]" + (Separator + rest));
    assert r[|h| + |a| + 1..] == Separator + rest;
  }
}

=== FILE: wrappers.dfy ===
/** Failure-compatible result types shared by every module of the model. */
module Wrappers {

  /** An optional value; `None` stands for a missing entry or a null reference. */
  datatype Option<+T> = None | Some(value: T)

  /** The outcome of an operation that the source may abort with an exception. */
  datatype Result<+R, +E> = Success(value: R) | Failure(error: E) {

    predicate IsFailure() {
      Failure?
    }

    function PropagateFailure<U>(): Result<U, E>
      requires Failure?
    {
      Failure(error)
    }

    function Extract(): R
      requires Success?
    {
      value
    }
  }
}
